=== FILE: README.md ===
# Cargo lint levels, lint-table validation and single-file manifests

This project models cargo's own lints (the `[lints.cargo]` table of a
manifest) in Dafny, and proves properties of the model. It covers three parts:

- **Lint-level resolution.** A lint's effective level and the reason for it
  are chosen from these sources, in this order:
  - the lint's feature gate
  - a `forbid` set anywhere
  - the lint and its primary group as declared in `[lints.cargo]` (higher
    priority wins; on a tie the lint wins)
  - an edition-specific level
  - the group's default level
- **Validation of the `[lints.cargo]` table.** Every declared name is
  classified as one of:
  - a known lint
  - a lint group
  - a dynamic group (`warnings`)
  - an unknown name

  An unstable lint or group whose feature is not enabled raises an error.
  Unknown names get an `unknown_lints` report, with a "similar name" hint
  and a provenance note on the first report. Two generations of the pass
  are modelled:
  - the current one in `src/cargo/lints/mod.rs`: a CLI-flag or
    manifest-feature gate, dynamic groups, and reporting that may not find
    its span
  - the older one in `src/cargo/util/lints.rs`: feature gates only, a span
    lookup that must succeed, `unknown_lints` and the `im_a_teapot` test lint
- **Single-file packages** (`src/cargo/util/toml/single_file_package.rs`):
  - the manifest text taken from a script's inner doc comments
  - the package name derived from the file stem
  - the expansion of the embedded manifest into a complete one

Modules:

- `Wrappers`: `Option` and `Result`.
- `Levels`:
  - lint levels, reasons and editions
  - level and reason display
  - the "is set to" provenance note
- `Strings`: the string operations cargo relies on:
  - `trim`, `trim_start_matches`, `split` and `replace`
  - substring search
  - upper-casing and lexicographic order
- `Catalog`: lints, groups, feature gates, the declared-lints table, and the
  constant catalogues of both generations.
- `Toml`: a span-annotated document tree and the key/value lookup along a
  key path.
- `Resolver`: the level resolver and its precedence lemmas.
- `Diagnostics`: reports, manifests, and name classification.
- `Validation`: the current `analyze_cargo_lints_table` and
  `report_feature_not_enabled`.
- `Legacy`: the older generation:
  - `analyze_cargo_lints_table`
  - `verify_feature_enabled`
  - `output_unknown_lints`
  - `check_im_a_teapot`
- `SingleFilePackage`: `package_name`, `expand_manifest`, and the line filter
  of `extract_manifest`.

Reports are abstract records of these fields:

- severity
- title
- the primary location (which manifest, which span)
- label, note and help
- an optional "was inherited" secondary annotation
- whether the report is forced

Printing them is not modelled.

## Model

| member | source | states |
|---|---|---|
| `Levels.EditionOrderIsTotal` | src/cargo/lints/mod.rs:378-381 | Editions form a total order, so the `edition >= e` test for an edition-specific level is always decided. |
| `Levels.Force` | src/cargo/lints/mod.rs:467-474 | A report is forced exactly when the level is not Allow. |
| `Levels.ToDiagnosticLevel` | src/cargo/lints/mod.rs:458-465 | Allow has no diagnostic level. Every other level maps to Error or Warning, and to Error exactly when it is an error level (Deny or Forbid). |
| `Levels.ErrorLevelsAreForced` | src/cargo/lints/mod.rs:454-474 | Every error level is forced. The only unforced level is Allow, which is not an error. |
| `Levels.FromToml` | src/cargo/lints/mod.rs:476-487 | Converting a TOML level and converting back gives the original level. |
| `Levels.FromTomlIsBijective` | src/cargo/lints/mod.rs:476-487 | The conversion is a bijection that maps Forbid to Forbid and Allow to Allow, and nothing else onto them. |
| `Levels.LevelDisplay` | src/cargo/lints/mod.rs:442-451 | A level's display name is non-empty and contains no backtick. Parsing it gives back the level. |
| `Levels.ReasonDisplayIsInjective` | src/cargo/lints/mod.rs:494-503 | Distinct reasons (by default, in a given edition, in `[lints]`) print differently. |
| `Levels.EmittedSource` | src/cargo/lints/mod.rs:429-431 | The note is `` `cargo::`` and the lint name, then `` ` is set to ` ``, the level's full display name, a closing backtick and a space, and finally the reason's phrase. |
| `Levels.EmittedSourceIsInjective` | src/cargo/lints/mod.rs:429-431 | For a given lint, the provenance note determines both the level and the reason. |
| `Strings.ReplaceChar` | src/cargo/lints/mod.rs:156 | Replacing one character keeps the length. It changes exactly the occurrences of that character. |
| `Strings.ReplaceCharRemovesAll` | src/cargo/lints/mod.rs:156 | For two distinct characters, the replaced one no longer occurs afterwards. Replacing twice is the same as replacing once, and a string without the character is unchanged. |
| `Strings.Trim` | src/cargo/util/toml/single_file_package.rs:32 | The result is a piece of the input with only whitespace before and after it in the input, and it neither starts nor ends with whitespace. |
| `Strings.TrimIsUnique` | src/cargo/util/toml/single_file_package.rs:32 | At most one string meets that description, so trimming is fully determined by it. |
| `Strings.TrimStartMatches` | src/cargo/util/toml/single_file_package.rs:32 | The input is some number of whole copies of the pattern followed by the result, and the result does not start with the pattern. |
| `Strings.StripsCopiesIsUnique` | src/cargo/util/toml/single_file_package.rs:32 | At most one string is left once leading whole copies of a non-empty pattern are cut off, so that description fully determines the result. |
| `Strings.Split` | src/cargo/util/toml/single_file_package.rs:30 | Splitting at a separator gives at least one piece. No piece contains the separator. Joining the pieces with the separator gives back the input. |
| `Strings.SplitJoin` | src/cargo/util/toml/single_file_package.rs:30 | Pieces that contain no separator, once joined, split back into exactly those pieces. |
| `Strings.SplitPiecesOccur` | src/cargo/util/toml/single_file_package.rs:30 | Every piece of a split occurs inside the input. |
| `Strings.SplitAppend` | src/cargo/util/toml/single_file_package.rs:30 | Splitting a string at one occurrence of the separator gives the pieces of the part before it followed by the pieces of the part after it. |
| `Strings.StrictlySortedPairwise` | src/cargo/lints/mod.rs:541-548 | A sequence whose adjacent elements are strictly ordered has every earlier element strictly before every later one. |
| `Catalog.GatePolarity` | src/cargo/lints/mod.rs:369-372 | A CLI gate blocks exactly when its flag is enabled. A feature gate blocks exactly when its feature is not enabled. No gate never blocks. |
| `Catalog.Get` | src/cargo/lints/mod.rs:376-377 | A lookup in the declared table is None exactly when no entry has the name. Otherwise it gives the setting of the first entry with that name: no earlier entry has it. |
| `Catalog.Keys` | src/cargo/lints/mod.rs:108 | The declared names, one per entry in table order. A name is among them exactly when looking it up in the table finds a declaration. |
| `Catalog.LintGroupsSorted` | src/cargo/lints/mod.rs:533-549 | The current group catalogue is strictly sorted by upper-cased name. |
| `Catalog.LegacyLintGroupsSorted` | src/cargo/util/lints.rs:594-610 | The older group catalogue is strictly sorted by upper-cased name. |
| `Catalog.LegacyLintsSorted` | src/cargo/util/lints.rs:578-592 | The names of the older lint catalogue, taken from the catalogue itself, are strictly sorted by upper-cased name. |
| `Toml.Find` | src/cargo/lints/mod.rs:214 | A key lookup in a table fails exactly when no entry has the key. Otherwise it gives an entry with that key. |
| `Toml.FindString` | src/cargo/lints/mod.rs:224-227 | The search in an array finds an element that is the given string, and fails only when there is none. |
| `Toml.GetKeyValue` | src/cargo/lints/mod.rs:203-244 | An empty path or a missing first key finds nothing. A one-key path that is present finds that entry's key, key span and value. A result's key is one of the path's keys; when it is not the last one, the item is the string that followed it in the path (the array case). `Toml.GetKeyValueSpan` gives a span exactly when this lookup succeeds, with the key's and the value's spans. |
| `Toml.NestedLookup` | src/cargo/lints/mod.rs:203-232 | Looking up a key path in a document of nested tables built along that path finds the innermost key and its value. |
| `Toml.TableDescends` | src/cargo/lints/mod.rs:214-220 | When a non-final key holds a table, the lookup continues with the rest of the path inside that table. |
| `Toml.ScalarKeepsTable` | src/cargo/lints/mod.rs:214-229 | When a non-final key holds a scalar, the lookup continues with the rest of the path in the same table. |
| `Toml.ArrayIgnoresTail` | src/cargo/lints/mod.rs:221-228 | When a non-final key holds an array, the next path segment is looked for among the array's strings. The remaining segments are ignored. |
| `Resolver.Compare` | src/cargo/lints/mod.rs:407-413 | The priority comparison gives Greater, Less or Equal in agreement with the integer order. |
| `Resolver.EditionLevel` | src/cargo/lints/mod.rs:378-381 | An edition-specific level applies exactly when the lint has one and the current edition is at or after its edition. It is that level. |
| `Resolver.Level` | src/cargo/lints/mod.rs:360-427 | A blocking gate gives (Allow, by default). Otherwise the level is Forbid exactly when the lint, its group, the edition level or the group default is Forbid. A Package reason means the lint or group was declared. An edition reason carries the current edition and the lint's edition level. A default reason gives Allow or the group default. |
| `Resolver.LevelIsFirstApplicableTier` | src/cargo/lints/mod.rs:384-426 | The resolved level is the first applicable tier in the precedence order: gate, the four Forbid checks, explicit declarations, edition level, group default. |
| `Resolver.DisabledFeatureGateIsInert` | src/cargo/lints/mod.rs:367-374 | A lint behind a feature that is not enabled resolves to (Allow, by default), whatever is declared. |
| `Resolver.GatePolarityInResolver` | src/cargo/lints/mod.rs:369-373 | A CLI-gated lint is silenced when its flag is on. A feature-gated lint is silenced when its feature is off. |
| `Resolver.ForbidWins` | src/cargo/lints/mod.rs:389-401 | Any Forbid wins over every explicit setting, in this order: the lint's, then the group's (both with reason Package), then the edition level's, then the group default's. |
| `Resolver.PriorityDecides` | src/cargo/lints/mod.rs:404-415 | With no Forbid and both lint and group declared, the higher priority wins, and a tie goes to the lint. |
| `Resolver.DeclarationsBeforeEditionBeforeDefault` | src/cargo/lints/mod.rs:403-425 | With no Forbid, a declaration decides (reason Package) exactly when the lint or group is declared. Otherwise the edition level decides, else the group default. |
| `Resolver.CliFlagsIrrelevantWithoutCliGate` | src/cargo/util/lints.rs:143-205 | For a lint without a CLI gate, the CLI flags never change the result. So the older resolver, which knows only feature gates, is the same function. |
| `Resolver.UnknownLintsWarnsByDefault` | src/cargo/util/lints.rs:463-468 | When neither `unknown_lints` nor `suspicious` is declared, `unknown_lints` resolves to (Warn, by default). |
| `Diagnostics.FindNamed` | src/cargo/lints/mod.rs:109-114 | Finding a lint, group or dynamic group by name fails exactly when no element has the name. Otherwise it gives the first element with that name: no earlier element has it. |
| `Diagnostics.Classify` | src/cargo/lints/mod.rs:108-119 | A name is a lint if a lint has it, else a group, else a dynamic group, else unknown, each in both directions. The classified entry is in the catalogue and carries the name. |
| `Diagnostics.GateOf` | src/cargo/lints/mod.rs:109-116 | A lint or group has its own feature gate. Dynamic groups and unknown names have no gate. |
| `Diagnostics.UnknownNames` | src/cargo/lints/mod.rs:107-119 | The collected unknown names are exactly the declared names that classify as unknown, and there are no more of them than declared names. |
| `Diagnostics.UnknownNamesAppend` | src/cargo/lints/mod.rs:107-119 | Collecting unknown names keeps the declared order: the names of a concatenation are the names of each part, in turn. |
| `Diagnostics.UnknownName` | src/cargo/lints/mod.rs:107-119 | A single declared name is collected exactly when it classifies as unknown. |
| `Diagnostics.DashFeatureName` | src/cargo/lints/mod.rs:156 | The dashed feature name has the same length, has a dash wherever the feature had an underscore, is unchanged elsewhere, and contains no underscore. |
| `Validation.LintKeyPath` | src/cargo/lints/mod.rs:167-170 | The key path has three keys for a package and four for a workspace. It ends with `lints`, `cargo` and the name, and starts with `workspace` exactly for the workspace scope. |
| `Validation.ReportFeatureNotEnabled` | src/cargo/lints/mod.rs:148-195 | The report is skipped exactly when the document and contents are present but the key cannot be located. The error count rises by one exactly when a report is made. The report is an error with the unstable-lint title and the help. It has a location exactly when the document and contents are present, and that location is the key's span. |
| `Validation.MissingFeature` | src/cargo/lints/mod.rs:121-123 | A missing feature is reported exactly when the name is feature-gated and the manifest does not enable that feature. |
| `Validation.GateReport` | src/cargo/lints/mod.rs:121-132 | A gate report is made exactly when a feature is missing and the declaration can be located (or there is no document or contents to locate it in). It is a forced error titled with the lint name, with the help naming the missing feature and no note or inheritance annotation. It is located exactly when document and contents are present, then at the key's span with the label naming the feature. |
| `Validation.GateReports` | src/cargo/lints/mod.rs:108-133 | There are at most as many gate reports as names, and each is a forced error. |
| `Validation.GateReportsAppend` | src/cargo/lints/mod.rs:108-133 | Gate reports keep the names' order: the reports of a concatenation are the reports of each part, in turn. |
| `Validation.GateReportsOne` | src/cargo/lints/mod.rs:121-132 | A single name yields exactly the report made for it, if any. |
| `Validation.AnalyzeCargoLintsTable` | src/cargo/lints/mod.rs:99-146 | The loop returns the gate reports in table order. It adds one to the error count per report, and hands on exactly the declared names that classify as unknown. |
| `Validation.ReportIndependentOfCount` | src/cargo/lints/mod.rs:190 | The report made does not depend on how many errors were counted before it. |
| `Validation.OnlyDisabledFeatureGatesReport` | src/cargo/lints/mod.rs:121-124 | No report for dynamic groups, unknown names, ungated or CLI-gated names, or names whose feature is enabled. |
| `Legacy.LocateDeclaration` | src/cargo/util/lints.rs:368-378 | A declaration is located exactly when the package or the workspace table holds it. The package manifest is preferred; otherwise it is the workspace manifest. Either way the location is that table's key span. |
| `Legacy.InheritedGroup` | src/cargo/util/lints.rs:391-403 | The "was inherited" annotation is present exactly when the package sets `lints.workspace`. It spans that whole entry. |
| `Legacy.VerifyFeatureEnabled` | src/cargo/util/lints.rs:344-409 | A report is made exactly when the feature is off, and the error count rises by one exactly then. The report is an unforced error with the unstable-lint title, located at the declaration. |
| `Legacy.GatedOffNames` | src/cargo/util/lints.rs:295-320 | The names reported by the gate check are exactly the declared names whose gating feature is off, and there are no more of them than declared names. |
| `Legacy.GatedOffNamesAppend` | src/cargo/util/lints.rs:295-320 | Collecting gated-off names keeps the table order: the names of a concatenation are the names of each part, in turn. |
| `Legacy.GatedOffName` | src/cargo/util/lints.rs:295-320 | A single declared name is collected exactly when its feature is off. |
| `Legacy.FeatureGateReports` | src/cargo/util/lints.rs:295-320 | There is one gate error per gated-off name, in table order. Each is an unforced error titled with that name and located at its declaration. Its label and help name the name's feature, it has no note, and it carries the "was inherited" annotation exactly as `Legacy.InheritedGroup` gives it. |
| `Legacy.Suggestion` | src/cargo/util/lints.rs:514-523 | With dashes made underscores, the hint names a lint if one has that name, else a group if one does, else nothing, each in both directions. |
| `Legacy.OutputUnknownLints` | src/cargo/util/lints.rs:489-570 | When `unknown_lints` resolves to Allow there are no reports and no errors. Otherwise there is one forced report per unknown name, in order, and an error is counted per name exactly at an error level. Each report has the resolved severity, the unknown-lint title, the declaration's location, the hint and the inheritance annotation. Exactly the first report carries the provenance note for `unknown_lints`. |
| `Legacy.CheckImATeapot` | src/cargo/util/lints.rs:421-461 | A report is made exactly when the lint is not Allow and `package.im-a-teapot` is set. It counts as an error exactly at an error level. It spans the whole key/value entry and carries the provenance note. |
| `Legacy.AnalyzeCargoLintsTable` | src/cargo/util/lints.rs:283-342 | The reports are the gate errors followed by the unknown-lint reports. The pass fails exactly when the error count is positive, and the error carries that count. A successful pass emitted no error-severity report. |
| `SingleFilePackage.SlugChar` | src/cargo/util/toml/single_file_package.rs:155-165 | Slug characters are kept. Upper-case ASCII letters are lowered. Anything else becomes `_`. |
| `SingleFilePackage.Slugify` | src/cargo/util/toml/single_file_package.rs:148-166 | The slug uses only `[0-9a-z_-]` and never starts with a digit. A leading digit gets a `_` before it. Every other character is mapped one for one. |
| `SingleFilePackage.SlugifyIdempotent` | src/cargo/util/toml/single_file_package.rs:148-166 | Slugifying a slug changes nothing. |
| `SingleFilePackage.PackageName` | src/cargo/util/toml/single_file_package.rs:143-179 | The name fails exactly when the path has no file stem. Otherwise it is the slug, with one `_` before it exactly when the slug is reserved. It uses only slug characters. |
| `SingleFilePackage.PackageNameNotBuiltin` | src/cargo/util/toml/single_file_package.rs:170-177 | A derived name is never `test` or the name of a standard library crate. |
| `SingleFilePackage.LeadingDigitIsEscaped` | src/cargo/util/toml/single_file_package.rs:151-154 | A stem starting with a digit yields a name with `_` (or `__`, if reserved) before that digit. |
| `SingleFilePackage.FirstPresent` | src/cargo/util/toml/single_file_package.rs:62-66 | The forbidden-key check finds a key exactly when one of the listed keys is present. What it finds is present, and it is the first listed key that is: every key listed before it is absent. |
| `SingleFilePackage.TableOrEmpty` | src/cargo/util/toml/single_file_package.rs:71-75 | An absent key gives an empty table. A table gives itself. Anything else is an error. |
| `SingleFilePackage.InsertIfAbsent` | src/cargo/util/toml/single_file_package.rs:92-108 | A default is added only where the key is absent. Every existing entry is kept. |
| `SingleFilePackage.FillPackage` | src/cargo/util/toml/single_file_package.rs:91-108 | The package table gains `name`, `version` `0.0.0`, the latest edition and `publish = false`, each only if absent. Every existing key keeps its value. |
| `SingleFilePackage.StripRelease` | src/cargo/util/toml/single_file_package.rs:126-137 | The release profile gets `strip = true` unless set. Other profile and release keys are kept. It fails exactly when `profile.release` is not a table. |
| `SingleFilePackage.ExpandManifest` | src/cargo/util/toml/single_file_package.rs:55-140 | Expansion fails exactly when one of these holds: a forbidden top-level or package key is present; `package`, `profile` or `profile.release` is not a table; the path has no stem; or the path is not UTF-8. A forbidden top-level key is reported first, by name. On success: `workspace` is empty; the package defaults are filled in; `bin` is the single script binary; release is stripped by default; the other `profile` keys and every other top-level key are unchanged. |
| `SingleFilePackage.ExpansionIsFinal` | src/cargo/util/toml/single_file_package.rs:62-69 | An expanded manifest is rejected if expanded again, because it now has `workspace`. |
| `SingleFilePackage.CleanBlockLine` | src/cargo/util/toml/single_file_package.rs:32 | The cleaned line is what is left after cutting whole leading ` * ` markers and then the surrounding whitespace. It occurs inside the raw line. |
| `SingleFilePackage.CleanBlockLineIsDetermined` | src/cargo/util/toml/single_file_package.rs:32 | Any string obtained by cutting the markers and then the whitespace is the cleaned line, so the description fixes it. |
| `SingleFilePackage.KeepLines` | src/cargo/util/toml/single_file_package.rs:34 | Kept lines are non-empty and contain no code fence. |
| `SingleFilePackage.KeepLinesAppend` | src/cargo/util/toml/single_file_package.rs:34-36 | The filter keeps the input's order: the lines kept from a concatenation are those kept from each part, in turn. |
| `SingleFilePackage.KeepOneLine` | src/cargo/util/toml/single_file_package.rs:34-36 | A single line is kept exactly when it is non-empty and fence-free. |
| `SingleFilePackage.KeptLinesAreInput` | src/cargo/util/toml/single_file_package.rs:34-36 | Every kept line is one of the input lines. |
| `SingleFilePackage.KeepLinesComplete` | src/cargo/util/toml/single_file_package.rs:34-36 | Every line that is non-empty and fence-free is kept. |
| `SingleFilePackage.KeepLinesPreserve` | src/cargo/util/toml/single_file_package.rs:34-36 | Filtering only drops lines. Any property of all input lines holds of all kept lines. |
| `SingleFilePackage.BlockCommentLines` | src/cargo/util/toml/single_file_package.rs:27-37 | A block comment's manifest lines are clean: non-empty, fence-free and trimmed. |
| `SingleFilePackage.BlockLinesOccur` | src/cargo/util/toml/single_file_package.rs:27-37 | Each manifest line of a block comment occurs inside the comment and spans no newline. |
| `SingleFilePackage.BlockCommentLinesAppend` | src/cargo/util/toml/single_file_package.rs:27-37 | The lines of a block comment are those of the text before a newline followed by those of the text after it. |
| `SingleFilePackage.BlockCommentOneLine` | src/cargo/util/toml/single_file_package.rs:27-37 | A newline-free piece gives its cleaned form, exactly when that is non-empty and fence-free. |
| `SingleFilePackage.LineCommentLines` | src/cargo/util/toml/single_file_package.rs:38-48 | Line comments give clean lines, each occurring inside one of the comments. |
| `SingleFilePackage.LineCommentLinesAppend` | src/cargo/util/toml/single_file_package.rs:38-48 | The lines of a run of line comments are those of each part of the run, in turn. |
| `SingleFilePackage.LineCommentOneLine` | src/cargo/util/toml/single_file_package.rs:38-48 | One line comment gives its trimmed text, exactly when that is non-empty and fence-free. |
| `SingleFilePackage.EmbeddedLines` | src/cargo/util/toml/single_file_package.rs:25-48 | The embedded manifest's lines are clean and each occurs in one of the doc-comment literals. For a single block comment, no line spans a newline. |
| `SingleFilePackage.EmbeddedBlockLinesComplete` | src/cargo/util/toml/single_file_package.rs:27-37 | For a single block comment, every line whose cleaned form is non-empty and fence-free appears in the manifest lines. |
| `SingleFilePackage.EmbeddedCommentLinesComplete` | src/cargo/util/toml/single_file_package.rs:38-48 | For line comments, every comment whose trimmed text is non-empty and fence-free appears in the manifest lines. |
| `SingleFilePackage.EmbeddedManifestSplits` | src/cargo/util/toml/single_file_package.rs:27-37 | For a block comment, splitting the written manifest text at newlines gives back the kept lines plus the empty piece after the final newline. |
| `SingleFilePackage.BlockMarkerStripped` | src/cargo/util/toml/single_file_package.rs:32 | One or two leading ` * ` markers are removed from a comment line. |

## Left out

- Rendering, terminal output and the `print_report` calls (`annotate_snippets` groups, snippets, paths): reports are abstract records; a snippet's file path is not recorded.
- `rel_cwd_manifest_path`: it depends on the current directory and the file system.
- The TOML parser and `toml::to_string_pretty`: documents are given already parsed, as span-annotated trees (`Toml`) or plain value trees (`SingleFilePackage`).
- `syn::parse_file` and its errors (an unsupported doc attribute or a non-string doc literal) in `extract_manifest`: the doc-comment literals are the input of `SingleFilePackage.EmbeddedLines`.
- The module `rules` is not part of this model. That covers the current lint catalogue (`LINTS`) and `rules::output_unknown_lints`. The current pass is modelled up to handing the unknown names on (`Validation.AnalyzeCargoLintsTable`). Unknown-lint reporting is modelled from the older generation in `src/cargo/util/lints.rs`.
- The `Edition` type is not part of this model. It is taken to be five editions ordered by release (2015, 2018, 2021, 2024, future); the "latest stable" edition is a parameter string.
- The `restricted_names` checks (`is_keyword`, `is_conflicting_artifact_name`, `is_windows_reserved`) and `cfg!(windows)` are parameters of `SingleFilePackage.PackageName`.
- `SingleFilePackage.PackageName`: the stem is taken as a string. `to_string_lossy` on a non-UTF-8 stem, which introduces replacement characters that then become `_`, is not modelled.
- The warning printed when `package.edition` is absent (`config.shell().warn`) is output only and is left out.
- The `docs` field of lints, `ManifestFor::lint_level` (a forwarding helper), the `Lint`/`LintGroup` display order used by documentation, and the catalogue-completeness tests (`ensure_updated_*`) that compare against files on disk.
- `Legacy.VerifyFeatureEnabled`, `Legacy.FeatureGateReports`, `Legacy.OutputUnknownLints` and `Legacy.AnalyzeCargoLintsTable`: cargo panics when a name cannot be located in either manifest. Here that is a precondition, not a modelled error path.
- `Legacy.CheckImATeapot`: cargo unwraps the span of `package.im-a-teapot`. Here that is a precondition.
- `Levels.ToDiagnosticLevel`: `unreachable!` for Allow is a precondition.
- `Toml.GetKeyValue`: the function's own contract fixes the result only for a one-key path. For longer paths it is pinned down by `Toml.TableDescends`, `Toml.ScalarKeepsTable` and `Toml.ArrayIgnoresTail`, which say where each step leads, and by `Toml.NestedLookup`.
- `Validation.GateReports`: its contract bounds the reports. Their exact sequence is stated by `Validation.GateReportsAppend` and `Validation.GateReportsOne` together with `Validation.GateReport`.
- `SingleFilePackage.KeepLines`: its contract says only what kept lines look like. That it is exactly the order-preserving filter is stated by `SingleFilePackage.KeepLinesAppend`, `SingleFilePackage.KeepOneLine` and `SingleFilePackage.KeepLinesComplete`.
- `SingleFilePackage.BlockCommentLines`, `SingleFilePackage.LineCommentLines` and `SingleFilePackage.EmbeddedLines`: their contracts say what each line looks like and where it comes from. The exact lines, in order, are stated by the `Append` and `OneLine` lemmas of each comment style and by the two `Complete` lemmas.
- The ordered map behind a `[lints.cargo]` table: the table is a sequence listed in key order. The model does not require it to be sorted or free of repeated names, so every contract holds for any order.
- Shell errors from printing (`?` on `print_report`) are not modelled; every step here succeeds apart from the errors listed in the contracts.

=== FILE: catalog.dfy ===
/**
 * The static catalog of lints, lint groups and dynamic lint groups, the
 * feature gates that guard them, and the declared-lints table of a manifest.
 */
module Catalog {
  import opened Wrappers
  import opened Levels
  import Strings

  /**
   * What must hold for a gated lint to take effect. The two kinds have
   * opposite polarity: a manifest feature blocks the lint until it is
   * enabled, a CLI flag blocks the lint once it is enabled.
   */
  datatype Gated = Cli(flag: string) | Feature(feature: string)

  datatype LintGroup = LintGroup(
    name: string,
    defaultLevel: LintLevel,
    desc: string,
    featureGate: Option<Gated>,
    hidden: bool)

  /** A group whose members are computed at evaluation time; it is never gated. */
  datatype DynamicLintGroup = DynamicLintGroup(name: string, desc: string)

  datatype Lint = Lint(
    name: string,
    desc: string,
    primaryGroup: LintGroup,
    /** From this edition on, the default becomes the given level. */
    editionLintOpts: Option<(Edition, LintLevel)>,
    featureGate: Option<Gated>)

  /** The set of lints and groups a validation pass knows about. */
  datatype LintCatalog = LintCatalog(
    lints: seq<Lint>,
    groups: seq<LintGroup>,
    dynamicGroups: seq<DynamicLintGroup>)

  /** The enabled unstable manifest features and CLI flags. */
  datatype Unstable = Unstable(features: set<string>, cliFlags: set<string>)

  /** Whether `gate` keeps its lint at Allow under the given unstable state. */
  predicate GateBlocks(gate: Option<Gated>, unstable: Unstable) {
    match gate
    case None => false
    case Some(Cli(flag)) => flag in unstable.cliFlags
    case Some(Feature(f)) => f !in unstable.features
  }

  /** The polarity of the two gate kinds is opposite. */
  lemma GatePolarity(flag: string, unstable: Unstable)
    ensures GateBlocks(Some(Cli(flag)), unstable) <==> flag in unstable.cliFlags
    ensures GateBlocks(Some(Feature(flag)), unstable) <==> flag !in unstable.features
    ensures !GateBlocks(None, unstable)
  {
  }

  /** One declared entry of a `[lints.cargo]` table: a level and a priority. */
  datatype TomlLint = TomlLint(level: TomlLintLevel, priority: int)

  datatype DeclaredLint = DeclaredLint(name: string, lint: TomlLint)

  /**
   * A `[lints.cargo]` table, listed in the order the table is walked: key
   * order, since cargo keeps it in an ordered map.
   */
  type TomlToolLints = seq<DeclaredLint>

  /** The declaration of `name`; the first one if a name repeats. */
  function Get(table: TomlToolLints, name: string): (r: Option<TomlLint>)
    ensures r.None? <==> forall i :: 0 <= i < |table| ==> table[i].name != name
    ensures r.Some? ==> exists i :: 0 <= i < |table| && table[i] == DeclaredLint(name, r.value)
                                    && forall j :: 0 <= j < i ==> table[j].name != name
  {
    if |table| == 0 then None
    else if table[0].name == name then Some(table[0].lint)
    else
      var r := Get(table[1..], name);
      assert r.Some? ==> exists i :: 0 <= i < |table[1..]| && table[1..][i] == DeclaredLint(name, r.value)
                                     && forall j :: 0 <= j < i ==> table[1..][j].name != name;
      r
  }

  /** The declared names, in table order: exactly the names `Get` finds. */
  function Keys(table: TomlToolLints): (names: seq<string>)
    ensures |names| == |table|
    ensures forall i :: 0 <= i < |table| ==> names[i] == table[i].name
    ensures forall n :: n in names <==> Get(table, n).Some?
  {
    Names(table, (d: DeclaredLint) => d.name)
  }

  // ---- Groups of the current generation, in catalog order ----

  const COMPLEXITY := LintGroup("complexity", LintLevel.Warn,
    "code that does something simple but in a complex way", None, false)
  const CORRECTNESS := LintGroup("correctness", LintLevel.Deny,
    "code that is outright wrong or useless", None, false)
  const NURSERY := LintGroup("nursery", LintLevel.Allow,
    "new lints that are still under development", None, false)
  const PEDANTIC := LintGroup("pedantic", LintLevel.Allow,
    "lints which are rather strict or have occasional false positives", None, false)
  const PERF := LintGroup("perf", LintLevel.Warn,
    "code that can be written to run faster", None, false)
  const RESTRICTION := LintGroup("restriction", LintLevel.Allow,
    "lints which prevent the use of Cargo features", None, false)
  const STYLE := LintGroup("style", LintLevel.Warn,
    "code that should be written in a more idiomatic way", None, false)
  const SUSPICIOUS := LintGroup("suspicious", LintLevel.Warn,
    "code that is most likely wrong or useless", None, false)
  /** Only for tests: gated behind the `test_dummy_unstable` feature and hidden. */
  const TEST_DUMMY_UNSTABLE := LintGroup("test_dummy_unstable", LintLevel.Allow,
    "test_dummy_unstable is meant to only be used in tests", Some(Feature("test_dummy_unstable")), true)

  const LINT_GROUPS: seq<LintGroup> :=
    [COMPLEXITY, CORRECTNESS, NURSERY, PEDANTIC, PERF, RESTRICTION, STYLE, SUSPICIOUS, TEST_DUMMY_UNSTABLE]

  const WARNINGS := DynamicLintGroup("warnings", "All lints that are set to issue warnings")

  const DYNAMIC_LINT_GROUPS: seq<DynamicLintGroup> := [WARNINGS]

  // ---- The older generation's catalog; its groups have no `hidden` flag (kept false) ----

  const LEGACY_CORRECTNESS := LintGroup("correctness", LintLevel.Deny,
    "code that is outright wrong or useless", None, false)
  const LEGACY_NURSERY := LintGroup("nursery", LintLevel.Allow,
    "new lints that are still under development", None, false)
  const LEGACY_PEDANTIC := LintGroup("pedantic", LintLevel.Allow,
    "lints which are rather strict or have occasional false positives", None, false)
  const LEGACY_RESTRICTION := LintGroup("restriction", LintLevel.Allow,
    "lints which prevent the use of language and library features", None, false)
  const LEGACY_STYLE := LintGroup("style", LintLevel.Warn,
    "code that should be written in a more idiomatic wa", None, false)
  const LEGACY_SUSPICIOUS := LintGroup("suspicious", LintLevel.Warn,
    "code that is most likely wrong or useless", None, false)
  const LEGACY_TEST_DUMMY_UNSTABLE := LintGroup("test_dummy_unstable", LintLevel.Allow,
    "test_dummy_unstable is meant to only be used in tests", Some(Feature("test_dummy_unstable")), false)

  const LEGACY_LINT_GROUPS: seq<LintGroup> :=
    [LEGACY_CORRECTNESS, LEGACY_NURSERY, LEGACY_PEDANTIC, LEGACY_RESTRICTION, LEGACY_STYLE,
     LEGACY_SUSPICIOUS, LEGACY_TEST_DUMMY_UNSTABLE]

  /** Only for tests: reports `package.im-a-teapot`. */
  const IM_A_TEAPOT := Lint("im_a_teapot", "`im_a_teapot` is specified",
    LEGACY_TEST_DUMMY_UNSTABLE, None, Some(Feature("test_dummy_unstable")))

  /** The meta-lint that governs how unknown names in `[lints.cargo]` are reported. */
  const UNKNOWN_LINTS := Lint("unknown_lints", "unknown lint", LEGACY_SUSPICIOUS, None, None)

  const LEGACY_LINTS: seq<Lint> := [IM_A_TEAPOT, UNKNOWN_LINTS]

  const LEGACY_CATALOG := LintCatalog(LEGACY_LINTS, LEGACY_LINT_GROUPS, [])

  /** The names of a sequence of named things, in order. */
  function Names<T>(xs: seq<T>, nameOf: T -> string): (names: seq<string>)
    ensures |names| == |xs|
    ensures forall i :: 0 <= i < |xs| ==> names[i] == nameOf(xs[i])
  {
    seq(|xs|, i requires 0 <= i < |xs| => nameOf(xs[i]))
  }

  function GroupNames(groups: seq<LintGroup>): seq<string> {
    Names(groups, (g: LintGroup) => g.name)
  }

  function LintNames(lints: seq<Lint>): seq<string> {
    Names(lints, (l: Lint) => l.name)
  }

  function UpperNames(names: seq<string>): (upper: seq<string>)
    ensures |upper| == |names|
    ensures forall i :: 0 <= i < |names| ==> upper[i] == Strings.ToUpper(names[i])
  {
    seq(|names|, i requires 0 <= i < |names| => Strings.ToUpper(names[i]))
  }

  /** Upper-cased names compare at the first position where the names differ. */
  lemma {:induction false} UpperLessAt(a: string, b: string, k: nat)
    requires k < |a| && k < |b| && a[..k] == b[..k]
    requires Strings.ToUpperAscii(a[k]) < Strings.ToUpperAscii(b[k])
    ensures Strings.LexLess(Strings.ToUpper(a), Strings.ToUpper(b))
    decreases k
  {
    var ua, ub := Strings.ToUpper(a), Strings.ToUpper(b);
    if k > 0 {
      assert a[0] == a[..k][0] == b[..k][0] == b[0];
      assert a[1..][..k - 1] == a[..k][1..];
      assert b[1..][..k - 1] == b[..k][1..];
      UpperLessAt(a[1..], b[1..], k - 1);
      assert ua[1..] == Strings.ToUpper(a[1..]);
      assert ub[1..] == Strings.ToUpper(b[1..]);
    }
  }

  /** Upper-cased neighbours in order, checked pair by pair. */
  lemma SortedFromPairs(names: seq<string>, firstDiff: seq<nat>)
    requires |firstDiff| == |names|
    requires forall i :: 0 < i < |names| ==>
               var a, b, k := names[i - 1], names[i], firstDiff[i];
               k < |a| && k < |b| && a[..k] == b[..k]
               && Strings.ToUpperAscii(a[k]) < Strings.ToUpperAscii(b[k])
    ensures Strings.StrictlySorted(UpperNames(names))
  {
    var u := UpperNames(names);
    forall i | 0 < i < |names|
      ensures Strings.LexLess(u[i - 1], u[i])
    {
      UpperLessAt(names[i - 1], names[i], firstDiff[i]);
    }
  }

  /** The current group catalog is sorted by upper-cased name. */
  lemma LintGroupsSorted()
    ensures Strings.StrictlySorted(UpperNames(GroupNames(LINT_GROUPS)))
  {
    var names := GroupNames(LINT_GROUPS);
    assert names == ["complexity", "correctness", "nursery", "pedantic", "perf", "restriction",
                     "style", "suspicious", "test_dummy_unstable"];
    SortedFromPairs(names, [0, 2, 0, 0, 2, 0, 0, 1, 0]);
  }

  /** The older group catalog is sorted by upper-cased name. */
  lemma LegacyLintGroupsSorted()
    ensures Strings.StrictlySorted(UpperNames(GroupNames(LEGACY_LINT_GROUPS)))
  {
    var names := GroupNames(LEGACY_LINT_GROUPS);
    assert names == ["correctness", "nursery", "pedantic", "restriction", "style", "suspicious",
                     "test_dummy_unstable"];
    SortedFromPairs(names, [0, 0, 0, 0, 0, 1, 0]);
  }

  /** The older lint catalog is sorted by upper-cased name. */
  lemma LegacyLintsSorted()
    ensures Strings.StrictlySorted(UpperNames(LintNames(LEGACY_LINTS)))
  {
    var names := LintNames(LEGACY_LINTS);
    assert names == ["im_a_teapot", "unknown_lints"];
    SortedFromPairs(names, [0, 0]);
  }
}

=== FILE: diagnostics.dfy ===
/**
 * Abstract diagnostic reports, the manifest views the validation passes
 * read, and the classification of declared names that both generations of
 * the validation pass share.
 */
module Diagnostics {
  import opened Wrappers
  import opened Levels
  import opened Toml
  import opened Catalog
  import Strings

  /** Which manifest a span points into. */
  datatype Origin = PackageManifest | WorkspaceManifest

  datatype Location = Location(origin: Origin, span: Range)

  /** The secondary "`cargo::<name>` was inherited" group pointing at `lints.workspace = true`. */
  datatype Inherited = Inherited(title: string, location: Location)

  /**
   * One emitted report: its primary group (severity, title, the annotated
   * span with its label, an optional note and an optional help), an optional
   * secondary group, and whether it must be shown even when suppressed.
   */
  datatype Report = Report(
    severity: Severity,
    title: string,
    location: Option<Location>,
    primaryLabel: Option<string>,
    note: Option<string>,
    help: Option<string>,
    inherited: Option<Inherited>,
    force: bool)

  /** Whether the lint table being validated is a package's or a workspace's. */
  datatype Scope = PackageScope | WorkspaceScope

  /**
   * The view of a manifest the current generation works on: its text and
   * parsed document (either may be absent), edition and enabled features.
   */
  datatype ManifestFor = ManifestFor(
    scope: Scope,
    contents: Option<string>,
    document: Option<Document>,
    edition: Edition,
    features: set<string>)

  /** What a declared name in `[lints.cargo]` refers to. */
  datatype Classified =
    | KnownLint(lint: Lint)
    | KnownGroup(group: LintGroup)
    | KnownDynamicGroup(dynamicGroup: DynamicLintGroup)
    | Unknown

  /** The first element carrying `name`; no element before it carries that name. */
  function FindNamed<T>(xs: seq<T>, nameOf: T -> string, name: string): (r: Option<T>)
    ensures r.None? <==> forall i :: 0 <= i < |xs| ==> nameOf(xs[i]) != name
    ensures r.Some? ==> r.value in xs && nameOf(r.value) == name
    ensures r.Some? ==> exists i :: 0 <= i < |xs| && xs[i] == r.value
                                    && forall j :: 0 <= j < i ==> nameOf(xs[j]) != name
  {
    if |xs| == 0 then None
    else if nameOf(xs[0]) == name then Some(xs[0])
    else
      var r := FindNamed(xs[1..], nameOf, name);
      assert r.Some? ==> exists i :: 0 <= i < |xs[1..]| && xs[1..][i] == r.value
                                     && forall j :: 0 <= j < i ==> nameOf(xs[1..][j]) != name;
      r
  }

  function FindLint(lints: seq<Lint>, name: string): Option<Lint> {
    FindNamed(lints, (l: Lint) => l.name, name)
  }

  function FindGroup(groups: seq<LintGroup>, name: string): Option<LintGroup> {
    FindNamed(groups, (g: LintGroup) => g.name, name)
  }

  predicate IsLintName(catalog: LintCatalog, name: string) {
    exists i :: 0 <= i < |catalog.lints| && catalog.lints[i].name == name
  }

  predicate IsGroupName(catalog: LintCatalog, name: string) {
    exists i :: 0 <= i < |catalog.groups| && catalog.groups[i].name == name
  }

  predicate IsDynamicGroupName(catalog: LintCatalog, name: string) {
    exists i :: 0 <= i < |catalog.dynamicGroups| && catalog.dynamicGroups[i].name == name
  }

  /** A name is tried as a lint, then as a group, then as a dynamic group. */
  function Classify(catalog: LintCatalog, name: string): (c: Classified)
    ensures c.KnownLint? <==> IsLintName(catalog, name)
    ensures c.KnownGroup? <==> !IsLintName(catalog, name) && IsGroupName(catalog, name)
    ensures c.KnownDynamicGroup? <==>
              !IsLintName(catalog, name) && !IsGroupName(catalog, name) && IsDynamicGroupName(catalog, name)
    ensures c.Unknown? <==>
              !IsLintName(catalog, name) && !IsGroupName(catalog, name) && !IsDynamicGroupName(catalog, name)
    ensures c.KnownLint? ==> c.lint in catalog.lints && c.lint.name == name
    ensures c.KnownGroup? ==> c.group in catalog.groups && c.group.name == name
    ensures c.KnownDynamicGroup? ==> c.dynamicGroup in catalog.dynamicGroups && c.dynamicGroup.name == name
  {
    match FindLint(catalog.lints, name)
    case Some(l) => KnownLint(l)
    case None =>
      match FindGroup(catalog.groups, name)
      case Some(g) => KnownGroup(g)
      case None =>
        match FindNamed(catalog.dynamicGroups, (d: DynamicLintGroup) => d.name, name)
        case Some(d) => KnownDynamicGroup(d)
        case None => Unknown
  }

  /** The feature gate of what a name refers to; dynamic groups have none. */
  function GateOf(c: Classified): (g: Option<Gated>)
    ensures c.KnownLint? ==> g == c.lint.featureGate
    ensures c.KnownGroup? ==> g == c.group.featureGate
    ensures c.KnownDynamicGroup? || c.Unknown? ==> g.None?
  {
    match c
    case KnownLint(l) => l.featureGate
    case KnownGroup(g) => g.featureGate
    case KnownDynamicGroup(_) => None
    case Unknown => None
  }

  /** The declared names that refer to nothing in the catalog, in table order. */
  function UnknownNames(catalog: LintCatalog, names: seq<string>): (unknown: seq<string>)
    ensures |unknown| <= |names|
    ensures forall x :: x in unknown <==> x in names && Classify(catalog, x).Unknown?
  {
    if |names| == 0 then []
    else
      var last := names[|names| - 1];
      var init := names[..|names| - 1];
      assert names == init + [last];
      UnknownNames(catalog, init) + (if Classify(catalog, last).Unknown? then [last] else [])
  }

  /** Collecting unknown names keeps their order: it commutes with concatenation. */
  lemma {:induction false} UnknownNamesAppend(catalog: LintCatalog, a: seq<string>, b: seq<string>)
    ensures UnknownNames(catalog, a + b) == UnknownNames(catalog, a) + UnknownNames(catalog, b)
    decreases |b|
  {
    if |b| == 0 {
      assert a + b == a;
    } else {
      var init := b[..|b| - 1];
      assert (a + b)[..|a + b| - 1] == a + init;
      assert (a + b)[|a + b| - 1] == b[|b| - 1];
      UnknownNamesAppend(catalog, a, init);
    }
  }

  /** A single name is collected exactly when it is unknown. */
  lemma UnknownName(catalog: LintCatalog, x: string)
    ensures UnknownNames(catalog, [x]) == if Classify(catalog, x).Unknown? then [x] else []
  {
    assert [x][..0] == [];
  }

  /** A feature name with underscores turned into dashes, as `cargo-features` spells it. */
  function DashFeatureName(feature: string): (r: string)
    ensures |r| == |feature| && '_' !in r
    ensures forall i :: 0 <= i < |feature| ==> r[i] == (if feature[i] == '_' then '-' else feature[i])
  {
    Strings.ReplaceCharRemovesAll(feature, '_', '-');
    Strings.ReplaceChar(feature, '_', '-')
  }

  function UnstableLintTitle(name: string): string {
    "use of unstable lint `" + name + "`"
  }

  function UnstableLintLabel(feature: string): string {
    "this is behind `" + DashFeatureName(feature) + "`, which is not enabled"
  }

  function UnstableLintHelp(feature: string): string {
    "consider adding `cargo-features = [\"" + DashFeatureName(feature) + "\"]` to the top of the manifest"
  }

  function InheritedTitle(name: string): string {
    "`cargo::" + name + "` was inherited"
  }
}

=== FILE: legacy.dfy ===
/**
 * The older generation of lint validation: feature-gate errors that may
 * point into the workspace manifest, the unknown-lint report with its
 * "did you mean" help, the `im_a_teapot` test lint, and the overall verdict.
 *
 * Its resolver is `Resolver.Level` with no CLI flags: this generation's
 * gates are all manifest features.
 */
module Legacy {
  import opened Wrappers
  import opened Levels
  import opened Toml
  import opened Catalog
  import opened Resolver
  import opened Diagnostics
  import Strings

  /** A package manifest as this generation sees it: text and document are always present. */
  datatype PackageManifest = PackageManifest(
    contents: string,
    document: Document,
    edition: Edition,
    features: set<string>,
    /** `package.im-a-teapot` is set in the normalized manifest. */
    imATeapot: bool)

  /** The workspace root manifest the package may inherit its lints from. */
  datatype WorkspaceManifest = WorkspaceManifest(contents: string, document: Document)

  /** This generation resolves levels without CLI flags. */
  function LegacyLevel(lint: Lint, pkgLints: TomlToolLints, pkg: PackageManifest): Resolved {
    Level(lint, pkgLints, pkg.edition, Unstable(pkg.features, {}))
  }

  /**
   * The declaration of `name`: in the package's `[lints.cargo]` if it is
   * there, else in the workspace's `[workspace.lints.cargo]`.
   */
  function LocateDeclaration(pkg: PackageManifest, ws: WorkspaceManifest, name: string): (loc: Option<Location>)
    ensures loc.Some? <==>
              GetKeyValueSpan(pkg.document, ["lints", "cargo", name]).Some?
              || GetKeyValueSpan(ws.document, ["workspace", "lints", "cargo", name]).Some?
    ensures GetKeyValueSpan(pkg.document, ["lints", "cargo", name]).Some? ==>
              loc == Some(Location(Diagnostics.PackageManifest, GetKeyValueSpan(pkg.document, ["lints", "cargo", name]).value.key))
    ensures GetKeyValueSpan(pkg.document, ["lints", "cargo", name]).None?
            && GetKeyValueSpan(ws.document, ["workspace", "lints", "cargo", name]).Some? ==>
              loc == Some(Location(Diagnostics.WorkspaceManifest,
                                   GetKeyValueSpan(ws.document, ["workspace", "lints", "cargo", name]).value.key))
  {
    match GetKeyValueSpan(pkg.document, ["lints", "cargo", name])
    case Some(span) => Some(Location(Diagnostics.PackageManifest, span.key))
    case None =>
      match GetKeyValueSpan(ws.document, ["workspace", "lints", "cargo", name])
      case Some(span) => Some(Location(Diagnostics.WorkspaceManifest, span.key))
      case None => None
  }

  /** The secondary group naming the inherited lint, when the package has `lints.workspace`. */
  function InheritedGroup(pkg: PackageManifest, name: string): (i: Option<Inherited>)
    ensures i.Some? <==> GetKeyValueSpan(pkg.document, ["lints", "workspace"]).Some?
    ensures i.Some? ==>
              i.value.location == Location(Diagnostics.PackageManifest, WholeEntry(GetKeyValueSpan(pkg.document, ["lints", "workspace"]).value))
              && i.value.title == InheritedTitle(name)
  {
    match GetKeyValueSpan(pkg.document, ["lints", "workspace"])
    case None => None
    case Some(span) => Some(Inherited(InheritedTitle(name), Location(Diagnostics.PackageManifest, WholeEntry(span))))
  }

  // ---- Feature gates ----

  datatype Step = Step(report: Option<Report>, errorCount: nat)

  /**
   * `verify_feature_enabled`: an error when the gate's feature is off, at
   * the declaration in whichever manifest holds it. The declaration must be
   * somewhere (cargo panics otherwise).
   */
  function VerifyFeatureEnabled(name: string, feature: string, pkg: PackageManifest, ws: WorkspaceManifest, errorCount: nat): (s: Step)
    requires feature !in pkg.features ==> LocateDeclaration(pkg, ws, name).Some?
    ensures s.report.Some? <==> feature !in pkg.features
    ensures s.errorCount == errorCount + (if feature in pkg.features then 0 else 1)
    ensures s.report.Some? ==>
              var r := s.report.value;
              && r.severity == Error && !r.force
              && r.title == UnstableLintTitle(name)
              && r.location == LocateDeclaration(pkg, ws, name)
              && r.primaryLabel == Some(UnstableLintLabel(feature))
              && r.help == Some(UnstableLintHelp(feature))
              && r.note.None?
              && r.inherited == InheritedGroup(pkg, name)
  {
    if feature in pkg.features then Step(None, errorCount)
    else
      var report := Report(Error, UnstableLintTitle(name), LocateDeclaration(pkg, ws, name),
                           Some(UnstableLintLabel(feature)), None, Some(UnstableLintHelp(feature)),
                           InheritedGroup(pkg, name), false);
      Step(Some(report), errorCount + 1)
  }

  /** This generation's gates are all manifest features; the feature of a declared name, if any. */
  function LegacyGateFeature(catalog: LintCatalog, name: string): Option<string> {
    match GateOf(Classify(catalog, name))
    case Some(Feature(f)) => Some(f)
    case _ => None
  }

  /** What `name` refers to is behind a manifest feature that is off. */
  predicate FeatureOff(catalog: LintCatalog, name: string, pkg: PackageManifest) {
    LegacyGateFeature(catalog, name).Some? && LegacyGateFeature(catalog, name).value !in pkg.features
  }

  /** Every declared name whose feature is off can be located (cargo panics otherwise). */
  predicate GatedNamesLocatable(catalog: LintCatalog, names: seq<string>, pkg: PackageManifest, ws: WorkspaceManifest) {
    forall i :: 0 <= i < |names| ==>
      FeatureOff(catalog, names[i], pkg) ==> LocateDeclaration(pkg, ws, names[i]).Some?
  }

  /** The declared names whose feature is off, in table order. */
  function GatedOffNames(catalog: LintCatalog, names: seq<string>, pkg: PackageManifest): (gated: seq<string>)
    ensures |gated| <= |names|
    ensures forall x :: x in gated <==> x in names && FeatureOff(catalog, x, pkg)
  {
    if |names| == 0 then []
    else
      var init := names[..|names| - 1];
      var last := names[|names| - 1];
      assert names == init + [last];
      GatedOffNames(catalog, init, pkg) + (if FeatureOff(catalog, last, pkg) then [last] else [])
  }

  /** Collecting gated-off names keeps their order: it commutes with concatenation. */
  lemma {:induction false} GatedOffNamesAppend(catalog: LintCatalog, a: seq<string>, b: seq<string>, pkg: PackageManifest)
    ensures GatedOffNames(catalog, a + b, pkg) == GatedOffNames(catalog, a, pkg) + GatedOffNames(catalog, b, pkg)
    decreases |b|
  {
    if |b| == 0 {
      assert a + b == a;
    } else {
      var init := b[..|b| - 1];
      assert (a + b)[..|a + b| - 1] == a + init;
      assert (a + b)[|a + b| - 1] == b[|b| - 1];
      GatedOffNamesAppend(catalog, a, init, pkg);
    }
  }

  /** A single name is collected exactly when its feature is off. */
  lemma GatedOffName(catalog: LintCatalog, x: string, pkg: PackageManifest)
    ensures GatedOffNames(catalog, [x], pkg) == if FeatureOff(catalog, x, pkg) then [x] else []
  {
    assert [x][..0] == [];
  }

  /** `r` is the unstable-lint error for `name`, whose gating `feature` is off. */
  predicate IsGateError(r: Report, name: string, feature: string, pkg: PackageManifest, ws: WorkspaceManifest) {
    && r.severity == Error && !r.force
    && r.title == UnstableLintTitle(name)
    && r.location == LocateDeclaration(pkg, ws, name) && r.location.Some?
    && r.primaryLabel == Some(UnstableLintLabel(feature))
    && r.help == Some(UnstableLintHelp(feature))
    && r.note.None?
    && r.inherited == InheritedGroup(pkg, name)
  }

  /**
   * The feature-gate errors for the declared names, in table order:
   * one per name whose feature is off, and no other.
   */
  function FeatureGateReports(catalog: LintCatalog, names: seq<string>, pkg: PackageManifest, ws: WorkspaceManifest): (reports: seq<Report>)
    requires GatedNamesLocatable(catalog, names, pkg, ws)
    ensures var gated := GatedOffNames(catalog, names, pkg);
            && |reports| == |gated|
            && forall k :: 0 <= k < |reports| ==>
                 && LegacyGateFeature(catalog, gated[k]).Some?
                 && IsGateError(reports[k], gated[k], LegacyGateFeature(catalog, gated[k]).value, pkg, ws)
  {
    if |names| == 0 then []
    else
      var init := names[..|names| - 1];
      var name := names[|names| - 1];
      assert GatedNamesLocatable(catalog, init, pkg, ws) by {
        assert forall i :: 0 <= i < |init| ==> init[i] == names[i];
      }
      var rest := FeatureGateReports(catalog, init, pkg, ws);
      if FeatureOff(catalog, name, pkg) then
        rest + [VerifyFeatureEnabled(name, LegacyGateFeature(catalog, name).value, pkg, ws, 0).report.value]
      else
        rest
  }

  // ---- Unknown lints ----

  /**
   * The "did you mean" candidate for an unknown name: with dashes turned
   * into underscores, a lint of that name, else a group of that name.
   */
  function Suggestion(catalog: LintCatalog, name: string): (s: Option<(string, string)>)
    ensures var u := Strings.ReplaceChar(name, '-', '_');
            && (s.Some? ==> s.value.0 == u)
            && (s.Some? && s.value.1 == "lint" <==> IsLintName(catalog, u))
            && (s.Some? && s.value.1 == "group" <==> !IsLintName(catalog, u) && IsGroupName(catalog, u))
            && (s.None? <==> !IsLintName(catalog, u) && !IsGroupName(catalog, u))
  {
    var u := Strings.ReplaceChar(name, '-', '_');
    match FindLint(catalog.lints, u)
    case Some(l) => Some((l.name, "lint"))
    case None =>
      match FindGroup(catalog.groups, u)
      case Some(g) => Some((g.name, "group"))
      case None => None
  }

  function SuggestionHelp(catalog: LintCatalog, name: string): Option<string> {
    match Suggestion(catalog, name)
    case None => None
    case Some((n, kind)) => Some("there is a " + kind + " with a similar name: `" + n + "`")
  }

  function UnknownLintTitle(name: string): string {
    UNKNOWN_LINTS.desc + ": `" + name + "`"
  }

  /** Every unknown name can be located (cargo panics otherwise). */
  predicate AllLocatable(names: seq<string>, pkg: PackageManifest, ws: WorkspaceManifest) {
    forall i :: 0 <= i < |names| ==> LocateDeclaration(pkg, ws, names[i]).Some?
  }

  /** The report for the `i`-th unknown name; only the first carries the level's provenance note. */
  function UnknownLintReport(catalog: LintCatalog, unknown: seq<string>, i: int, pkg: PackageManifest, ws: WorkspaceManifest, resolved: Resolved): Report
    requires 0 <= i < |unknown| && resolved.level != LintLevel.Allow
  {
    Report(ToDiagnosticLevel(resolved.level), UnknownLintTitle(unknown[i]), LocateDeclaration(pkg, ws, unknown[i]),
           None,
           if i == 0 then Some(EmittedSource(UNKNOWN_LINTS.name, resolved.level, resolved.reason)) else None,
           SuggestionHelp(catalog, unknown[i]),
           InheritedGroup(pkg, unknown[i]),
           Force(resolved.level))
  }

  /**
   * `output_unknown_lints`: nothing when `unknown_lints` resolves to Allow;
   * otherwise one report per unknown name, each counted as an error when the
   * level is an error level.
   */
  function OutputUnknownLints(catalog: LintCatalog, unknown: seq<string>, pkg: PackageManifest, ws: WorkspaceManifest,
                              pkgLints: TomlToolLints, errorCount: nat): (out: (seq<Report>, nat))
    requires LegacyLevel(UNKNOWN_LINTS, pkgLints, pkg).level != LintLevel.Allow ==> AllLocatable(unknown, pkg, ws)
    ensures var resolved := LegacyLevel(UNKNOWN_LINTS, pkgLints, pkg);
            var (reports, count) := out;
            && (resolved.level == LintLevel.Allow ==> reports == [] && count == errorCount)
            && (resolved.level != LintLevel.Allow ==>
                  && |reports| == |unknown|
                  && count == errorCount + (if IsError(resolved.level) then |unknown| else 0)
                  && (forall i :: 0 <= i < |reports| ==>
                        && reports[i].severity == ToDiagnosticLevel(resolved.level)
                        && reports[i].force
                        && reports[i].title == UnknownLintTitle(unknown[i])
                        && reports[i].location.Some?
                        && reports[i].location == LocateDeclaration(pkg, ws, unknown[i])
                        && reports[i].help == SuggestionHelp(catalog, unknown[i])
                        && reports[i].inherited == InheritedGroup(pkg, unknown[i])
                        && (reports[i].note.Some? <==> i == 0))
                  && (|reports| > 0 ==>
                        reports[0].note == Some(EmittedSource("unknown_lints", resolved.level, resolved.reason))))
  {
    var resolved := LegacyLevel(UNKNOWN_LINTS, pkgLints, pkg);
    if resolved.level == LintLevel.Allow then ([], errorCount)
    else
      var reports := seq(|unknown|, i requires 0 <= i < |unknown| => UnknownLintReport(catalog, unknown, i, pkg, ws, resolved));
      (reports, errorCount + (if IsError(resolved.level) then |unknown| else 0))
  }

  // ---- The `im_a_teapot` test lint ----

  /**
   * `check_im_a_teapot`: nothing at Allow; otherwise a report when
   * `package.im-a-teapot` is set, counted as an error at an error level.
   * The key must then be in the document (cargo unwraps the lookup and would panic).
   */
  function CheckImATeapot(pkg: PackageManifest, pkgLints: TomlToolLints, errorCount: nat): (s: Step)
    requires LegacyLevel(IM_A_TEAPOT, pkgLints, pkg).level != LintLevel.Allow && pkg.imATeapot ==>
               GetKeyValueSpan(pkg.document, ["package", "im-a-teapot"]).Some?
    ensures var resolved := LegacyLevel(IM_A_TEAPOT, pkgLints, pkg);
            && (s.report.Some? <==> resolved.level != LintLevel.Allow && pkg.imATeapot)
            && s.errorCount == errorCount + (if s.report.Some? && IsError(resolved.level) then 1 else 0)
            && (s.report.Some? ==>
                  && s.report.value.title == IM_A_TEAPOT.desc
                  && s.report.value.severity == ToDiagnosticLevel(resolved.level)
                  && s.report.value.force
                  && s.report.value.note == Some(EmittedSource("im_a_teapot", resolved.level, resolved.reason))
                  && s.report.value.location ==
                       Some(Location(Diagnostics.PackageManifest, WholeEntry(GetKeyValueSpan(pkg.document, ["package", "im-a-teapot"]).value))))
  {
    var resolved := LegacyLevel(IM_A_TEAPOT, pkgLints, pkg);
    if resolved.level == LintLevel.Allow then Step(None, errorCount)
    else if pkg.imATeapot then
      var count := if IsError(resolved.level) then errorCount + 1 else errorCount;
      var span := GetKeyValueSpan(pkg.document, ["package", "im-a-teapot"]).value;
      var report := Report(ToDiagnosticLevel(resolved.level), IM_A_TEAPOT.desc,
                           Some(Location(Diagnostics.PackageManifest, WholeEntry(span))), None,
                           Some(EmittedSource(IM_A_TEAPOT.name, resolved.level, resolved.reason)), None, None,
                           Force(resolved.level));
      Step(Some(report), count)
    else Step(None, errorCount)
  }

  // ---- The whole pass ----

  /** The summary error: the number of errors found. */
  datatype LintsError = EncounteredErrors(count: nat)

  /**
   * `analyze_cargo_lints_table` of this generation: feature-gate errors for
   * every declared name, then the unknown-lint reports, failing iff at least
   * one error was counted.
   */
  function AnalyzeCargoLintsTable(pkg: PackageManifest, pkgLints: TomlToolLints, ws: WorkspaceManifest):
      (out: (seq<Report>, Result<(), LintsError>))
    requires GatedNamesLocatable(LEGACY_CATALOG, Keys(pkgLints), pkg, ws)
    requires LegacyLevel(UNKNOWN_LINTS, pkgLints, pkg).level != LintLevel.Allow ==>
               AllLocatable(UnknownNames(LEGACY_CATALOG, Keys(pkgLints)), pkg, ws)
    ensures var gate := FeatureGateReports(LEGACY_CATALOG, Keys(pkgLints), pkg, ws);
            var unknown := OutputUnknownLints(LEGACY_CATALOG, UnknownNames(LEGACY_CATALOG, Keys(pkgLints)), pkg, ws, pkgLints, |gate|);
            && out.0 == gate + unknown.0
            && (out.1.Err? <==> unknown.1 > 0)
            && (out.1.Err? ==> out.1.error.count == unknown.1)
    ensures out.1.Ok? ==> forall r :: r in out.0 ==> r.severity != Error
  {
    var names := Keys(pkgLints);
    var gate := FeatureGateReports(LEGACY_CATALOG, names, pkg, ws);
    var (unknownReports, count) :=
      OutputUnknownLints(LEGACY_CATALOG, UnknownNames(LEGACY_CATALOG, names), pkg, ws, pkgLints, |gate|);
    (gate + unknownReports, if count > 0 then Err(EncounteredErrors(count)) else Ok(()))
  }
}

=== FILE: levels.dfy ===
/**
 * Lint severities, the reasons a severity was chosen, and the editions a
 * lint's default may depend on, with the text forms used in diagnostics.
 */
module Levels {
  import opened Wrappers

  /** The effective severity of a lint. */
  datatype LintLevel = Allow | Warn | Deny | Forbid

  /** The severity as written in a `[lints]` table of a manifest. */
  datatype TomlLintLevel = Allow | Warn | Deny | Forbid

  /**
   * The language editions, in release order. The edition type itself is
   * defined outside the lint subsystem; only its order and its display form
   * matter here.
   */
  datatype Edition = Edition2015 | Edition2018 | Edition2021 | Edition2024 | EditionFuture

  /** Why a level was chosen: the catalog default, an edition switch, or the manifest. */
  datatype LintLevelReason = Default | EditionReason(edition: Edition) | Package

  /** The severity of one group of a rendered diagnostic. */
  datatype Severity = Error | Warning | Note | Help

  function EditionIndex(e: Edition): nat {
    match e
    case Edition2015 => 0
    case Edition2018 => 1
    case Edition2021 => 2
    case Edition2024 => 3
    case EditionFuture => 4
  }

  /** `a >= b` in release order. */
  predicate EditionAtLeast(a: Edition, b: Edition) {
    EditionIndex(a) >= EditionIndex(b)
  }

  lemma EditionOrderIsTotal(a: Edition, b: Edition)
    ensures EditionAtLeast(a, b) || EditionAtLeast(b, a)
    ensures EditionAtLeast(a, b) && EditionAtLeast(b, a) ==> a == b
  {
  }

  /** Deny and Forbid are the levels that make a finding fatal. */
  predicate IsError(l: LintLevel) {
    l == LintLevel.Forbid || l == LintLevel.Deny
  }

  /** Whether a report at this level must be shown even when output is suppressed. */
  function Force(l: LintLevel): (r: bool)
    ensures r <==> l != LintLevel.Allow
  {
    match l
    case Allow => false
    case Warn => true
    case Deny => true
    case Forbid => true
  }

  /** The diagnostic severity a non-allowed level is reported with (Allow has none). */
  function ToDiagnosticLevel(l: LintLevel): (s: Severity)
    requires l != LintLevel.Allow
    ensures s == Error || s == Warning
    ensures s == Error <==> IsError(l)
  {
    match l
    case Warn => Warning
    case Deny => Error
    case Forbid => Error
  }

  lemma ErrorLevelsAreForced(l: LintLevel)
    ensures IsError(l) ==> Force(l)
    ensures !Force(l) ==> !IsError(l) && l == LintLevel.Allow
  {
  }

  /** Conversion from the manifest's severity to the effective severity. */
  function FromToml(t: TomlLintLevel): (l: LintLevel)
    ensures ToToml(l) == t
  {
    match t
    case Allow => LintLevel.Allow
    case Warn => LintLevel.Warn
    case Deny => LintLevel.Deny
    case Forbid => LintLevel.Forbid
  }

  /** The inverse of `FromToml`. */
  function ToToml(l: LintLevel): TomlLintLevel {
    match l
    case Allow => TomlLintLevel.Allow
    case Warn => TomlLintLevel.Warn
    case Deny => TomlLintLevel.Deny
    case Forbid => TomlLintLevel.Forbid
  }

  lemma FromTomlIsBijective(l: LintLevel, t: TomlLintLevel)
    ensures FromToml(ToToml(l)) == l
    ensures FromToml(t) == LintLevel.Forbid <==> t == TomlLintLevel.Forbid
    ensures FromToml(t) == LintLevel.Allow <==> t == TomlLintLevel.Allow
  {
  }

  function LevelDisplay(l: LintLevel): (s: string)
    ensures |s| > 0 && '`' !in s
    ensures ParseLevel(s) == Some(l)
  {
    match l
    case Allow => "allow"
    case Warn => "warn"
    case Deny => "deny"
    case Forbid => "forbid"
  }

  /** Reads back the display form of a level. */
  function ParseLevel(s: string): Option<LintLevel> {
    if s == "allow" then Some(LintLevel.Allow)
    else if s == "warn" then Some(LintLevel.Warn)
    else if s == "deny" then Some(LintLevel.Deny)
    else if s == "forbid" then Some(LintLevel.Forbid)
    else None
  }

  function EditionDisplay(e: Edition): (s: string)
    ensures |s| > 0
  {
    match e
    case Edition2015 => "2015"
    case Edition2018 => "2018"
    case Edition2021 => "2021"
    case Edition2024 => "2024"
    case EditionFuture => "future"
  }

  function ReasonDisplay(r: LintLevelReason): string {
    match r
    case Default => "by default"
    case EditionReason(e) => "in edition " + EditionDisplay(e)
    case Package => "in `[lints]`"
  }

  lemma ReasonDisplayIsInjective(a: LintLevelReason, b: LintLevelReason)
    ensures ReasonDisplay(a) == ReasonDisplay(b) ==> a == b
  {
    if a != b {
      var sa, sb := ReasonDisplay(a), ReasonDisplay(b);
      if a.Default? || b.Default? {
        assert sa[0] != sb[0];
      } else if a.Package? || b.Package? {
        assert sa[3] != sb[3];
      } else {
        assert sa[11] != sb[11] || sa[13] != sb[13] || sa[14] != sb[14];
      }
    }
  }

  /** The note attached to a lint report: "`cargo::<name>` is set to `<level>` <reason>". */
  function EmittedSource(name: string, l: LintLevel, r: LintLevelReason): (s: string)
    ensures |s| > |name| + 21
    ensures s[..8] == "`cargo::" && s[8..8 + |name|] == name
    ensures s[8 + |name|..|name| + 21] == "` is set to `"
    ensures s[|name| + 21] == LevelDisplay(l)[0]
    ensures |s| >= |name| + 21 + |LevelDisplay(l)| + |ReasonDisplay(r)|
    ensures s[|name| + 21..|name| + 21 + |LevelDisplay(l)|] == LevelDisplay(l)
    ensures s[|name| + 21 + |LevelDisplay(l)|..|s| - |ReasonDisplay(r)|] == "` "
    ensures s[|s| - |ReasonDisplay(r)|..] == ReasonDisplay(r)
  {
    var s := "`cargo::" + name + "` is set to `" + LevelDisplay(l) + "` " + ReasonDisplay(r);
    assert s == ("`cargo::" + name + "` is set to `") + (LevelDisplay(l) + "` " + ReasonDisplay(r));
    s
  }

  /** Different levels or reasons never produce the same note for a lint. */
  lemma EmittedSourceIsInjective(name: string, l1: LintLevel, r1: LintLevelReason, l2: LintLevel, r2: LintLevelReason)
    ensures EmittedSource(name, l1, r1) == EmittedSource(name, l2, r2) ==> l1 == l2 && r1 == r2
  {
    if EmittedSource(name, l1, r1) == EmittedSource(name, l2, r2) {
      assert EmittedSource(name, l1, r1)[|name| + 21] == EmittedSource(name, l2, r2)[|name| + 21];
      assert l1 == l2;
      var prefix := "`cargo::" + name + "` is set to `" + LevelDisplay(l1) + "` ";
      assert EmittedSource(name, l1, r1) == prefix + ReasonDisplay(r1);
      assert EmittedSource(name, l2, r2) == prefix + ReasonDisplay(r2);
      assert ReasonDisplay(r1) == EmittedSource(name, l1, r1)[|prefix|..];
      ReasonDisplayIsInjective(r1, r2);
    }
  }
}

=== FILE: resolver.dfy ===
/**
 * The lint-level resolver: the effective level of one lint, and why, from
 * its feature gate, the manifest's declarations for the lint and for its
 * primary group, its edition override and its group's default.
 *
 * Precedence: gate, then any Forbid, then the declarations, then the
 * edition override, then the group default.
 */
module Resolver {
  import opened Wrappers
  import opened Levels
  import opened Catalog

  datatype Resolved = Resolved(level: LintLevel, reason: LintLevelReason)

  datatype Ordering = Less | Equal | Greater

  function Compare(a: int, b: int): (o: Ordering)
    ensures o == Greater <==> a > b
    ensures o == Less <==> a < b
  {
    if a < b then Less else if a == b then Equal else Greater
  }

  /** The level the edition override prescribes for `edition`, if it applies. */
  function EditionLevel(lint: Lint, edition: Edition): (r: Option<LintLevel>)
    ensures r.Some? <==> lint.editionLintOpts.Some? && EditionAtLeast(edition, lint.editionLintOpts.value.0)
    ensures r.Some? ==> r.value == lint.editionLintOpts.value.1
  {
    match lint.editionLintOpts
    case None => None
    case Some((e, l)) => if EditionAtLeast(edition, e) then Some(l) else None
  }

  /** The manifest declares the lint or its primary group Forbid. */
  predicate DeclaredForbid(lint: Lint, pkgLints: TomlToolLints) {
    var l := Get(pkgLints, lint.name);
    var g := Get(pkgLints, lint.primaryGroup.name);
    || (l.Some? && l.value.level == TomlLintLevel.Forbid)
    || (g.Some? && g.value.level == TomlLintLevel.Forbid)
  }

  /** A declaration, or the applicable edition override, or the group default, is Forbid. */
  predicate ForbidSomewhere(lint: Lint, pkgLints: TomlToolLints, edition: Edition) {
    || DeclaredForbid(lint, pkgLints)
    || EditionLevel(lint, edition) == Some(LintLevel.Forbid)
    || lint.primaryGroup.defaultLevel == LintLevel.Forbid
  }

  /** The lint's or its primary group's name is declared in the manifest. */
  predicate Declared(lint: Lint, pkgLints: TomlToolLints) {
    Get(pkgLints, lint.name).Some? || Get(pkgLints, lint.primaryGroup.name).Some?
  }

  function Level(lint: Lint, pkgLints: TomlToolLints, edition: Edition, unstable: Unstable): (r: Resolved)
    // A blocking gate makes the lint inert whatever else is declared.
    ensures GateBlocks(lint.featureGate, unstable) ==> r == Resolved(LintLevel.Allow, Default)
    // Forbid anywhere cannot be escaped, and Forbid only comes from somewhere.
    ensures r.level == LintLevel.Forbid <==>
              !GateBlocks(lint.featureGate, unstable) && ForbidSomewhere(lint, pkgLints, edition)
    // The manifest is the reason only when it declares the lint or its group.
    ensures r.reason == Package ==> !GateBlocks(lint.featureGate, unstable) && Declared(lint, pkgLints)
    // An edition reason names the manifest's edition and the override's level.
    ensures r.reason.EditionReason? ==>
              r.reason.edition == edition && EditionLevel(lint, edition) == Some(r.level)
    // A default reason is the gate's Allow or the group default.
    ensures r.reason == Default ==>
              r.level == LintLevel.Allow || r.level == lint.primaryGroup.defaultLevel
  {
    if GateBlocks(lint.featureGate, unstable) then
      Resolved(LintLevel.Allow, Default)
    else
      var lintDecl := Get(pkgLints, lint.name);
      var groupDecl := Get(pkgLints, lint.primaryGroup.name);
      var editionLevel := EditionLevel(lint, edition);
      var defaultLevel := lint.primaryGroup.defaultLevel;
      if lintDecl.Some? && lintDecl.value.level == TomlLintLevel.Forbid then
        Resolved(FromToml(lintDecl.value.level), Package)
      else if groupDecl.Some? && groupDecl.value.level == TomlLintLevel.Forbid then
        Resolved(FromToml(groupDecl.value.level), Package)
      else if editionLevel == Some(LintLevel.Forbid) then
        Resolved(editionLevel.value, EditionReason(edition))
      else if defaultLevel == LintLevel.Forbid then
        Resolved(defaultLevel, Default)
      else match (lintDecl, groupDecl)
        case (Some(l), Some(g)) =>
          var level := match Compare(l.priority, g.priority)
            case Greater => l.level
            case Equal => l.level
            case Less => g.level;
          Resolved(FromToml(level), Package)
        case (Some(l), None) => Resolved(FromToml(l.level), Package)
        case (None, Some(g)) => Resolved(FromToml(g.level), Package)
        case (None, None) =>
          if editionLevel.Some? then Resolved(editionLevel.value, EditionReason(edition))
          else Resolved(defaultLevel, Default)
  }

  // ---- An independent statement of the precedence as "first tier that applies" ----

  /** The declared level that wins between a lint and its group, if either is declared. */
  function ExplicitTier(lintDecl: Option<TomlLint>, groupDecl: Option<TomlLint>): Option<Resolved> {
    if lintDecl.Some? && (groupDecl.None? || lintDecl.value.priority >= groupDecl.value.priority) then
      Some(Resolved(FromToml(lintDecl.value.level), Package))
    else if groupDecl.Some? then
      Some(Resolved(FromToml(groupDecl.value.level), Package))
    else None
  }

  /** Each precedence tier's verdict, most important first. */
  function Tiers(lint: Lint, pkgLints: TomlToolLints, edition: Edition, unstable: Unstable): seq<Option<Resolved>> {
    var l := Get(pkgLints, lint.name);
    var g := Get(pkgLints, lint.primaryGroup.name);
    var e := EditionLevel(lint, edition);
    var d := lint.primaryGroup.defaultLevel;
    var forbidPackage := Some(Resolved(LintLevel.Forbid, Package));
    [ if GateBlocks(lint.featureGate, unstable) then Some(Resolved(LintLevel.Allow, Default)) else None,
      if l.Some? && l.value.level == TomlLintLevel.Forbid then forbidPackage else None,
      if g.Some? && g.value.level == TomlLintLevel.Forbid then forbidPackage else None,
      if e == Some(LintLevel.Forbid) then Some(Resolved(LintLevel.Forbid, EditionReason(edition))) else None,
      if d == LintLevel.Forbid then Some(Resolved(LintLevel.Forbid, Default)) else None,
      ExplicitTier(l, g),
      if e.Some? then Some(Resolved(e.value, EditionReason(edition))) else None,
      Some(Resolved(d, Default)) ]
  }

  function FirstSome(tiers: seq<Option<Resolved>>): Option<Resolved> {
    if |tiers| == 0 then None
    else if tiers[0].Some? then tiers[0]
    else FirstSome(tiers[1..])
  }

  /** The resolver returns the verdict of the first tier that has one. */
  lemma LevelIsFirstApplicableTier(lint: Lint, pkgLints: TomlToolLints, edition: Edition, unstable: Unstable)
    ensures FirstSome(Tiers(lint, pkgLints, edition, unstable)) == Some(Level(lint, pkgLints, edition, unstable))
  {
    var t := Tiers(lint, pkgLints, edition, unstable);
    var l := Get(pkgLints, lint.name);
    var g := Get(pkgLints, lint.primaryGroup.name);
    var e := EditionLevel(lint, edition);
    var d := lint.primaryGroup.defaultLevel;
    var r := Level(lint, pkgLints, edition, unstable);
    if GateBlocks(lint.featureGate, unstable) {
      FirstSomeAt(t, 0);
    } else if l.Some? && l.value.level == TomlLintLevel.Forbid {
      FirstSomeAt(t, 1);
    } else if g.Some? && g.value.level == TomlLintLevel.Forbid {
      FirstSomeAt(t, 2);
    } else if e == Some(LintLevel.Forbid) {
      FirstSomeAt(t, 3);
    } else if d == LintLevel.Forbid {
      FirstSomeAt(t, 4);
    } else if l.Some? || g.Some? {
      assert t[5] == Some(r);
      FirstSomeAt(t, 5);
    } else if e.Some? {
      FirstSomeAt(t, 6);
    } else {
      FirstSomeAt(t, 7);
    }
  }

  /** The first tier with a verdict is the one `FirstSome` returns. */
  lemma {:induction false} FirstSomeAt(tiers: seq<Option<Resolved>>, k: int)
    requires 0 <= k < |tiers| && tiers[k].Some?
    requires forall j :: 0 <= j < k ==> tiers[j].None?
    ensures FirstSome(tiers) == tiers[k]
    decreases k
  {
    if k > 0 {
      FirstSomeAt(tiers[1..], k - 1);
    }
  }

  // ---- The precedence rules one by one ----

  /** A feature gate whose feature is off makes the lint Allow, even if it is declared Forbid. */
  lemma DisabledFeatureGateIsInert(lint: Lint, f: string, pkgLints: TomlToolLints, edition: Edition, unstable: Unstable)
    requires lint.featureGate == Some(Feature(f)) && f !in unstable.features
    ensures Level(lint, pkgLints, edition, unstable) == Resolved(LintLevel.Allow, Default)
  {
  }

  /**
   * A CLI gate blocks exactly when its flag is enabled; otherwise the lint
   * resolves as if it had no gate. A feature gate is the other way round.
   */
  lemma GatePolarityInResolver(lint: Lint, name: string, pkgLints: TomlToolLints, edition: Edition, unstable: Unstable)
    ensures lint.featureGate == Some(Cli(name)) ==>
      (name in unstable.cliFlags ==> Level(lint, pkgLints, edition, unstable) == Resolved(LintLevel.Allow, Default))
      && (name !in unstable.cliFlags ==> Level(lint, pkgLints, edition, unstable) == Level(lint.(featureGate := None), pkgLints, edition, unstable))
    ensures lint.featureGate == Some(Feature(name)) ==>
      (name !in unstable.features ==> Level(lint, pkgLints, edition, unstable) == Resolved(LintLevel.Allow, Default))
      && (name in unstable.features ==> Level(lint, pkgLints, edition, unstable) == Level(lint.(featureGate := None), pkgLints, edition, unstable))
  {
  }

  /**
   * Unless the gate blocks, the first Forbid among lint declaration, group
   * declaration, edition override and group default fixes the result, even
   * when the lint itself is declared Allow.
   */
  lemma ForbidWins(lint: Lint, pkgLints: TomlToolLints, edition: Edition, unstable: Unstable)
    requires !GateBlocks(lint.featureGate, unstable)
    ensures var l := Get(pkgLints, lint.name);
            l.Some? && l.value.level == TomlLintLevel.Forbid ==>
              Level(lint, pkgLints, edition, unstable) == Resolved(LintLevel.Forbid, Package)
    ensures var g := Get(pkgLints, lint.primaryGroup.name);
            g.Some? && g.value.level == TomlLintLevel.Forbid ==>
              Level(lint, pkgLints, edition, unstable) == Resolved(LintLevel.Forbid, Package)
    ensures !DeclaredForbid(lint, pkgLints) && EditionLevel(lint, edition) == Some(LintLevel.Forbid) ==>
              Level(lint, pkgLints, edition, unstable) == Resolved(LintLevel.Forbid, EditionReason(edition))
    ensures !DeclaredForbid(lint, pkgLints) && EditionLevel(lint, edition) != Some(LintLevel.Forbid)
            && lint.primaryGroup.defaultLevel == LintLevel.Forbid ==>
              Level(lint, pkgLints, edition, unstable) == Resolved(LintLevel.Forbid, Default)
  {
  }

  /**
   * With no Forbid anywhere and both the lint and its group declared, the
   * higher priority wins and a tie goes to the lint.
   */
  lemma PriorityDecides(lint: Lint, pkgLints: TomlToolLints, edition: Edition, unstable: Unstable, l: TomlLint, g: TomlLint)
    requires !GateBlocks(lint.featureGate, unstable) && !ForbidSomewhere(lint, pkgLints, edition)
    requires Get(pkgLints, lint.name) == Some(l) && Get(pkgLints, lint.primaryGroup.name) == Some(g)
    ensures l.priority >= g.priority ==> Level(lint, pkgLints, edition, unstable) == Resolved(FromToml(l.level), Package)
    ensures l.priority < g.priority ==> Level(lint, pkgLints, edition, unstable) == Resolved(FromToml(g.level), Package)
  {
  }

  /**
   * With no Forbid anywhere, a declaration of the lint or its group decides
   * the level with reason Package; the edition override is consulted only
   * when neither is declared; the group default only when nothing applies.
   */
  lemma DeclarationsBeforeEditionBeforeDefault(lint: Lint, pkgLints: TomlToolLints, edition: Edition, unstable: Unstable)
    requires !GateBlocks(lint.featureGate, unstable) && !ForbidSomewhere(lint, pkgLints, edition)
    ensures Get(pkgLints, lint.name).Some? && Get(pkgLints, lint.primaryGroup.name).None? ==>
              Level(lint, pkgLints, edition, unstable) == Resolved(FromToml(Get(pkgLints, lint.name).value.level), Package)
    ensures Get(pkgLints, lint.name).None? && Get(pkgLints, lint.primaryGroup.name).Some? ==>
              Level(lint, pkgLints, edition, unstable) == Resolved(FromToml(Get(pkgLints, lint.primaryGroup.name).value.level), Package)
    ensures Declared(lint, pkgLints) <==> Level(lint, pkgLints, edition, unstable).reason == Package
    ensures !Declared(lint, pkgLints) && EditionLevel(lint, edition).Some? ==>
              Level(lint, pkgLints, edition, unstable) == Resolved(EditionLevel(lint, edition).value, EditionReason(edition))
    ensures !Declared(lint, pkgLints) && EditionLevel(lint, edition).None? ==>
              Level(lint, pkgLints, edition, unstable) == Resolved(lint.primaryGroup.defaultLevel, Default)
  {
  }

  /**
   * The older generation's resolver had feature gates only: a lint without
   * a CLI gate resolves the same whatever CLI flags are enabled.
   */
  lemma CliFlagsIrrelevantWithoutCliGate(lint: Lint, pkgLints: TomlToolLints, edition: Edition, features: set<string>, flags1: set<string>, flags2: set<string>)
    requires !(lint.featureGate.Some? && lint.featureGate.value.Cli?)
    ensures Level(lint, pkgLints, edition, Unstable(features, flags1)) == Level(lint, pkgLints, edition, Unstable(features, flags2))
  {
  }

  /** `unknown_lints` is ungated and Suspicious: with nothing declared it warns by default. */
  lemma UnknownLintsWarnsByDefault(pkgLints: TomlToolLints, edition: Edition, unstable: Unstable)
    requires Get(pkgLints, "unknown_lints").None? && Get(pkgLints, "suspicious").None?
    ensures Level(UNKNOWN_LINTS, pkgLints, edition, unstable) == Resolved(LintLevel.Warn, Default)
  {
  }
}

=== FILE: single_file.dfy ===
/**
 * Embedded manifests of single-file packages: the manifest text taken from
 * a script's inner doc comments, the package name derived from the file
 * name, and the expansion that turns the embedded table into a complete
 * manifest.
 */
module SingleFilePackage {
  import opened Wrappers
  import Strings

  // ---- Package name ----

  predicate IsAsciiDigit(c: char) { '0' <= c <= '9' }

  /** The characters a slug is made of: `[0-9a-z_-]`. */
  predicate IsSlugChar(c: char) {
    IsAsciiDigit(c) || ('a' <= c <= 'z') || c == '_' || c == '-'
  }

  /** One character of the file stem at a position other than a leading digit. */
  function SlugChar(c: char): (r: char)
    ensures IsSlugChar(r)
    ensures IsSlugChar(c) ==> r == c
    ensures 'A' <= c <= 'Z' ==> r == (c as int + 32) as char
    ensures !IsSlugChar(c) && !('A' <= c <= 'Z') ==> r == '_'
  {
    if IsSlugChar(c) then c
    else if 'A' <= c <= 'Z' then (c as int + 32) as char
    else '_'
  }

  function SlugTail(s: string): (r: string)
    ensures |r| == |s|
    ensures forall i :: 0 <= i < |s| ==> r[i] == SlugChar(s[i])
  {
    if |s| == 0 then "" else [SlugChar(s[0])] + SlugTail(s[1..])
  }

  /**
   * The file stem turned into a slug: a leading digit gets a `_` before
   * it, lower-case letters, digits, `_` and `-` are kept, upper-case ASCII
   * letters are lowered and everything else becomes `_`.
   */
  function Slugify(name: string): (slug: string)
    ensures forall i :: 0 <= i < |slug| ==> IsSlugChar(slug[i])
    ensures |slug| > 0 ==> !IsAsciiDigit(slug[0])
    ensures |name| > 0 && IsAsciiDigit(name[0]) ==>
              |slug| == |name| + 1 && slug[..2] == ['_', name[0]]
              && forall i :: 1 <= i < |name| ==> slug[i + 1] == SlugChar(name[i])
    ensures !(|name| > 0 && IsAsciiDigit(name[0])) ==>
              |slug| == |name| && forall i :: 0 <= i < |name| ==> slug[i] == SlugChar(name[i])
  {
    if |name| == 0 then ""
    else if IsAsciiDigit(name[0]) then ['_', name[0]] + SlugTail(name[1..])
    else [SlugChar(name[0])] + SlugTail(name[1..])
  }

  lemma {:induction false} SlugTailKeepsSlugs(s: string)
    requires forall i :: 0 <= i < |s| ==> IsSlugChar(s[i])
    ensures SlugTail(s) == s
  {
    var r := SlugTail(s);
    assert forall i :: 0 <= i < |s| ==> r[i] == s[i];
  }

  /** A slug is its own slug: slugifying twice changes nothing. */
  lemma SlugifyIdempotent(name: string)
    ensures Slugify(Slugify(name)) == Slugify(name)
  {
    var slug := Slugify(name);
    if |slug| > 0 {
      assert slug[1..] == slug[1..];
      SlugTailKeepsSlugs(slug[1..]);
      assert slug == [slug[0]] + slug[1..];
    }
  }

  /**
   * The name checks of `cargo new`, which are defined elsewhere: keywords,
   * names that clash with build artifacts, Windows device names, and
   * whether the host is Windows.
   */
  datatype RestrictedNames = RestrictedNames(
    isKeyword: string -> bool,
    isConflictingArtifactName: string -> bool,
    isWindowsReserved: string -> bool,
    onWindows: bool)

  /** The names of the standard library crates a package may not take. */
  const BUILTIN_NAMES: seq<string> := ["core", "std", "alloc", "proc_macro", "proc-macro"]

  predicate IsReserved(slug: string, restricted: RestrictedNames) {
    || restricted.isKeyword(slug)
    || restricted.isConflictingArtifactName(slug)
    || (restricted.onWindows && restricted.isWindowsReserved(slug))
    || slug == "test"
    || slug in BUILTIN_NAMES
  }

  /** The package name of a single-file package, from its file stem. */
  function PackageName(stem: Option<string>, restricted: RestrictedNames): (r: Result<string, string>)
    ensures r.Err? <==> stem.None?
    ensures r.Err? ==> r.error == "no file name"
    ensures r.Ok? ==> var slug := Slugify(stem.value);
              (IsReserved(slug, restricted) ==> r.value == "_" + slug)
              && (!IsReserved(slug, restricted) ==> r.value == slug)
    ensures r.Ok? ==> forall i :: 0 <= i < |r.value| ==> IsSlugChar(r.value[i])
  {
    match stem
    case None => Err("no file name")
    case Some(name) =>
      var slug := Slugify(name);
      Ok(if IsReserved(slug, restricted) then "_" + slug else slug)
  }

  /** A derived package name is never `test` nor the name of a standard library crate. */
  lemma PackageNameNotBuiltin(stem: string, restricted: RestrictedNames)
    ensures var n := PackageName(Some(stem), restricted).value;
            n != "test" && n !in BUILTIN_NAMES
  {
    var slug := Slugify(stem);
    var n := PackageName(Some(stem), restricted).value;
    if IsReserved(slug, restricted) {
      assert n[0] == '_';
    }
  }

  /** A stem starting with a digit gets `_` before that digit. */
  lemma LeadingDigitIsEscaped(stem: string, restricted: RestrictedNames)
    requires |stem| > 0 && IsAsciiDigit(stem[0])
    ensures var n := PackageName(Some(stem), restricted).value;
            n[..2] == ['_', stem[0]] || n[..3] == ['_', '_', stem[0]]
  {
  }

  // ---- Manifest expansion ----

  /** A parsed TOML value. */
  datatype TomlValue =
    | TString(s: string)
    | TBool(b: bool)
    | TTable(t: map<string, TomlValue>)
    | TArray(a: seq<TomlValue>)
    /** Integers, floats and datetimes, which expansion never inspects. */
    | TOtherScalar

  type TomlTable = map<string, TomlValue>

  /** The script's path: its file stem and its text, if the path is valid UTF-8. */
  datatype ScriptPath = ScriptPath(stem: Option<string>, utf8: Option<string>)

  const DEFAULT_VERSION := "0.0.0"
  const DEFAULT_PUBLISH := false

  const FORBIDDEN_TOP_LEVEL: seq<string> := ["workspace", "lib", "bin", "example", "test", "bench"]
  const FORBIDDEN_PACKAGE: seq<string> :=
    ["workspace", "build", "links", "autobins", "autoexamples", "autotests", "autobenches"]

  /** The first of `keys` present in `table`. */
  function FirstPresent(keys: seq<string>, table: TomlTable): (r: Option<string>)
    ensures r.None? <==> forall i :: 0 <= i < |keys| ==> keys[i] !in table
    ensures r.Some? ==> r.value in table && exists i :: 0 <= i < |keys| && keys[i] == r.value
                                                       && forall j :: 0 <= j < i ==> keys[j] !in table
  {
    if |keys| == 0 then None
    else if keys[0] in table then Some(keys[0])
    else
      var r := FirstPresent(keys[1..], table);
      assert r.Some? ==> exists i :: 0 <= i < |keys[1..]| && keys[1..][i] == r.value
                                     && forall j :: 0 <= j < i ==> keys[1..][j] !in table;
      r
  }

  /** The table under `key`, or an empty one when absent; `None` when the key holds a non-table. */
  function TableOrEmpty(table: TomlTable, key: string): (r: Option<TomlTable>)
    ensures r.None? <==> key in table && !table[key].TTable?
    ensures r.Some? && key in table ==> r.value == table[key].t
    ensures r.Some? && key !in table ==> r.value == map[]
  {
    if key !in table then Some(map[])
    else if table[key].TTable? then Some(table[key].t)
    else None
  }

  /** `entry(key).or_insert(v)`: `v` only where the key is absent. */
  function InsertIfAbsent(table: TomlTable, key: string, v: TomlValue): (r: TomlTable)
    ensures r.Keys == table.Keys + {key}
    ensures key in table ==> r == table
    ensures key !in table ==> r[key] == v
    ensures forall k :: k in table ==> r[k] == table[k]
  {
    if key in table then table else table[key := v]
  }

  /**
   * The package table after expansion: every key it had keeps its value,
   * and `name`, `version`, `edition` and `publish` are added only if absent.
   */
  predicate ExpandedPackage(before: TomlTable, after: TomlTable, name: string, defaultEdition: string) {
    && after.Keys == before.Keys + {"name", "version", "edition", "publish"}
    && (forall k :: k in before ==> after[k] == before[k])
    && ("name" !in before ==> after["name"] == TString(name))
    && ("version" !in before ==> after["version"] == TString(DEFAULT_VERSION))
    && ("edition" !in before ==> after["edition"] == TString(defaultEdition))
    && ("publish" !in before ==> after["publish"] == TBool(DEFAULT_PUBLISH))
  }

  function FillPackage(package: TomlTable, name: string, defaultEdition: string): (after: TomlTable)
    ensures ExpandedPackage(package, after, name, defaultEdition)
  {
    var package1 := InsertIfAbsent(package, "name", TString(name));
    var package2 := InsertIfAbsent(package1, "version", TString(DEFAULT_VERSION));
    var package3 := InsertIfAbsent(package2, "edition", TString(defaultEdition));
    InsertIfAbsent(package3, "publish", TBool(DEFAULT_PUBLISH))
  }

  /**
   * The release profile after expansion: every key it had keeps its value,
   * and `strip` is set to `true` unless given.
   */
  predicate StrippedRelease(before: TomlTable, after: TomlTable) {
    && after.Keys == before.Keys + {"strip"}
    && (forall k :: k in before ==> after[k] == before[k])
    && ("strip" !in before ==> after["strip"] == TBool(true))
  }

  /** The `profile` table with release builds stripped by default; `None` when `profile.release` is not a table. */
  function StripRelease(profile: TomlTable): (r: Option<TomlTable>)
    ensures r.None? <==> TableOrEmpty(profile, "release").None?
    ensures r.Some? ==>
              && r.value.Keys == profile.Keys + {"release"}
              && (forall k :: k in profile && k != "release" ==> r.value[k] == profile[k])
              && r.value["release"].TTable?
              && StrippedRelease(TableOrEmpty(profile, "release").value, r.value["release"].t)
  {
    match TableOrEmpty(profile, "release")
    case None => None
    case Some(release) =>
      Some(profile["release" := TTable(InsertIfAbsent(release, "strip", TBool(true)))])
  }

  /** The error for a key that an embedded manifest may not set. */
  function NotAllowed(key: string): string {
    "`" + key + "` is not allowed in embedded manifests"
  }

  /** Whether expansion rejects the manifest (or the script's path). */
  predicate Rejected(manifest: TomlTable, path: ScriptPath) {
    || FirstPresent(FORBIDDEN_TOP_LEVEL, manifest).Some?
    || TableOrEmpty(manifest, "package").None?
    || FirstPresent(FORBIDDEN_PACKAGE, TableOrEmpty(manifest, "package").value).Some?
    || path.stem.None?
    || path.utf8.None?
    || TableOrEmpty(manifest, "profile").None?
    || TableOrEmpty(TableOrEmpty(manifest, "profile").value, "release").None?
  }

  /** The shape of an expanded manifest, relative to the embedded one. */
  predicate Expanded(manifest: TomlTable, m: TomlTable, name: string, path: string, defaultEdition: string) {
    && m.Keys == manifest.Keys + {"workspace", "package", "bin", "profile"}
    && (forall k :: k in manifest && k !in {"workspace", "package", "bin", "profile"} ==> m[k] == manifest[k])
    && m["workspace"] == TTable(map[])
    && m["bin"] == TArray([TTable(map["name" := TString(name), "path" := TString(path)])])
    && TableOrEmpty(manifest, "package").Some?
    && m["package"].TTable?
    && ExpandedPackage(TableOrEmpty(manifest, "package").value, m["package"].t, name, defaultEdition)
    && TableOrEmpty(manifest, "profile").Some?
    && m["profile"].TTable?
    && TableOrEmpty(TableOrEmpty(manifest, "profile").value, "release").Some?
    && m["profile"].t.Keys == TableOrEmpty(manifest, "profile").value.Keys + {"release"}
    && (forall k :: k in TableOrEmpty(manifest, "profile").value && k != "release" ==>
          m["profile"].t[k] == TableOrEmpty(manifest, "profile").value[k])
    && m["profile"].t["release"].TTable?
    && StrippedRelease(TableOrEmpty(TableOrEmpty(manifest, "profile").value, "release").value, m["profile"].t["release"].t)
  }

  /**
   * The embedded manifest made complete: forbidden keys rejected, the
   * workspace search cut off, package defaults filled in where absent, the
   * script added as the only binary, and release builds stripped unless
   * the manifest says otherwise. `defaultEdition` is the latest stable edition, used when
   * none is given.
   */
  function ExpandManifest(manifest: TomlTable, path: ScriptPath, restricted: RestrictedNames, defaultEdition: string): (r: Result<TomlTable, string>)
    ensures r.Err? <==> Rejected(manifest, path)
    ensures FirstPresent(FORBIDDEN_TOP_LEVEL, manifest).Some? ==>
              r == Err(NotAllowed(FirstPresent(FORBIDDEN_TOP_LEVEL, manifest).value))
    ensures r.Ok? ==> Expanded(manifest, r.value, PackageName(path.stem, restricted).value, path.utf8.value, defaultEdition)
  {
    match FirstPresent(FORBIDDEN_TOP_LEVEL, manifest)
    case Some(key) => Err(NotAllowed(key))
    case None =>
      match TableOrEmpty(manifest, "package")
      case None => Err("`package` must be a table")
      case Some(package) =>
        match FirstPresent(FORBIDDEN_PACKAGE, package)
        case Some(key) => Err(NotAllowed("package." + key))
        case None =>
          match PackageName(path.stem, restricted)
          case Err(e) => Err(e)
          case Ok(name) =>
            match path.utf8
            case None => Err("path is not valid UTF-8")
            case Some(p) =>
              match TableOrEmpty(manifest, "profile")
              case None => Err("`profile` must be a table")
              case Some(profile) =>
                match StripRelease(profile)
                case None => Err("`profile.release` must be a table")
                case Some(_) =>
                  AssembledIsExpanded(manifest, name, p, defaultEdition);
                  Ok(Assemble(manifest, name, p, defaultEdition))
  }

  /**
   * The expanded manifest, built from the parts once every check has
   * passed. Adding `workspace`, `package` and `bin` cannot change what
   * `profile` holds, so the checks may be made on the embedded manifest.
   */
  function Assemble(manifest: TomlTable, name: string, path: string, defaultEdition: string): TomlTable
    requires TableOrEmpty(manifest, "package").Some?
    requires TableOrEmpty(manifest, "profile").Some?
    requires StripRelease(TableOrEmpty(manifest, "profile").value).Some?
  {
    manifest["workspace" := TTable(map[])]
            ["package" := TTable(FillPackage(TableOrEmpty(manifest, "package").value, name, defaultEdition))]
            ["bin" := TArray([TTable(map["name" := TString(name), "path" := TString(path)])])]
            ["profile" := TTable(StripRelease(TableOrEmpty(manifest, "profile").value).value)]
  }

  lemma AssembledIsExpanded(manifest: TomlTable, name: string, path: string, defaultEdition: string)
    requires TableOrEmpty(manifest, "package").Some?
    requires TableOrEmpty(manifest, "profile").Some?
    requires StripRelease(TableOrEmpty(manifest, "profile").value).Some?
    ensures Expanded(manifest, Assemble(manifest, name, path, defaultEdition), name, path, defaultEdition)
  {
  }

  lemma WorkspaceIsForbiddenFirst(m: TomlTable)
    requires "workspace" in m
    ensures FirstPresent(FORBIDDEN_TOP_LEVEL, m) == Some("workspace")
  {
  }

  /** An expanded manifest cannot be expanded again: it now has `workspace` and `bin`. */
  lemma ExpansionIsFinal(manifest: TomlTable, path: ScriptPath, restricted: RestrictedNames, defaultEdition: string)
    ensures var r := ExpandManifest(manifest, path, restricted, defaultEdition);
            r.Ok? ==> ExpandManifest(r.value, path, restricted, defaultEdition) == Err(NotAllowed("workspace"))
  {
    var r := ExpandManifest(manifest, path, restricted, defaultEdition);
    if r.Ok? {
      assert "workspace" in r.value;
      WorkspaceIsForbiddenFirst(r.value);
    }
  }

  // ---- Extracting the embedded manifest from doc comments ----

  /** A line is kept when it is non-empty and is not a Markdown code fence. */
  predicate KeepLine(s: string) {
    |s| > 0 && !Strings.Contains(s, "```")
  }

  /** A line of a single block doc comment: leading ` * ` markers and surrounding whitespace removed. */
  function CleanBlockLine(line: string): (r: string)
    ensures exists m :: Strings.StripsCopies(line, " * ", m) && Strings.IsTrimOf(m, r)
    ensures Strings.Contains(line, r)
    ensures |r| > 0 ==> !Strings.IsWhitespace(r[0]) && !Strings.IsWhitespace(r[|r| - 1])
  {
    var stripped := Strings.TrimStartMatches(line, " * ");
    var r := Strings.Trim(stripped);
    ContainsTransitive(line, stripped, r);
    r
  }

  /**
   * `CleanBlockLine`'s contract determines its result: any string obtained
   * by cutting the leading markers and then the surrounding whitespace is it.
   */
  lemma CleanBlockLineIsDetermined(line: string, m: string, r: string)
    requires Strings.StripsCopies(line, " * ", m) && Strings.IsTrimOf(m, r)
    ensures r == CleanBlockLine(line)
  {
    var m' :| Strings.StripsCopies(line, " * ", m') && Strings.IsTrimOf(m', CleanBlockLine(line));
    Strings.StripsCopiesIsUnique(line, " * ", m, m');
    Strings.TrimIsUnique(m, r, CleanBlockLine(line));
  }

  lemma ContainsTransitive(a: string, b: string, c: string)
    requires Strings.Contains(a, b) || (|b| <= |a| && b == a[|a| - |b|..])
    requires Strings.Contains(b, c)
    ensures Strings.Contains(a, c)
  {
    var i: int;
    if Strings.Contains(a, b) {
      i :| 0 <= i <= |a| - |b| && Strings.OccursAt(a, b, i);
    } else {
      i := |a| - |b|;
    }
    var j :| 0 <= j <= |b| - |c| && Strings.OccursAt(b, c, j);
    assert a[i + j..i + j + |c|] == b[j..j + |c|];
    assert Strings.OccursAt(a, c, i + j);
  }

  /** The kept lines, in order. */
  function KeepLines(lines: seq<string>): (kept: seq<string>)
    ensures |kept| <= |lines|
    ensures forall k :: 0 <= k < |kept| ==> KeepLine(kept[k])
  {
    if |lines| == 0 then []
    else (if KeepLine(lines[0]) then [lines[0]] else []) + KeepLines(lines[1..])
  }

  /** Keeping lines commutes with concatenation: the filter keeps the input's order. */
  lemma {:induction false} KeepLinesAppend(a: seq<string>, b: seq<string>)
    ensures KeepLines(a + b) == KeepLines(a) + KeepLines(b)
    decreases |a|
  {
    if |a| == 0 {
      assert a + b == b;
    } else {
      assert (a + b)[0] == a[0];
      assert (a + b)[1..] == a[1..] + b;
      KeepLinesAppend(a[1..], b);
    }
  }

  /** A single line is kept exactly when it passes the filter. */
  lemma KeepOneLine(l: string)
    ensures KeepLines([l]) == if KeepLine(l) then [l] else []
  {
    assert [l][1..] == [];
  }

  /** Every kept line is one of the input lines. */
  lemma KeptLinesAreInput(lines: seq<string>)
    ensures forall k :: 0 <= k < |KeepLines(lines)| ==> KeepLines(lines)[k] in lines
  {
    KeepLinesPreserve(lines, l => l in lines);
  }

  /** Every line that passes the filter is kept. */
  lemma {:induction false} KeepLinesComplete(lines: seq<string>, i: int)
    requires 0 <= i < |lines| && KeepLine(lines[i])
    ensures lines[i] in KeepLines(lines)
    decreases |lines|
  {
    if i > 0 {
      KeepLinesComplete(lines[1..], i - 1);
    }
  }

  /** One comment line cleaned as its comment style demands. */
  function CleanAs(line: string, block: bool): (r: string)
    ensures Strings.Contains(line, r)
    ensures |r| > 0 ==> !Strings.IsWhitespace(r[0]) && !Strings.IsWhitespace(r[|r| - 1])
  {
    if block then CleanBlockLine(line) else Strings.Trim(line)
  }

  function MapClean(lines: seq<string>, block: bool): (r: seq<string>)
    ensures |r| == |lines|
    ensures forall k :: 0 <= k < |lines| ==> r[k] == CleanAs(lines[k], block)
  {
    if |lines| == 0 then [] else [CleanAs(lines[0], block)] + MapClean(lines[1..], block)
  }

  lemma {:induction false} MapCleanAppend(a: seq<string>, b: seq<string>, block: bool)
    ensures MapClean(a + b, block) == MapClean(a, block) + MapClean(b, block)
    decreases |a|
  {
    if |a| == 0 {
      assert a + b == b;
    } else {
      assert (a + b)[0] == a[0];
      assert (a + b)[1..] == a[1..] + b;
      MapCleanAppend(a[1..], b, block);
    }
  }

  /** Kept lines are non-empty, fence-free and trimmed. */
  predicate CleanLine(l: string) {
    && |l| > 0 && !Strings.Contains(l, "```")
    && !Strings.IsWhitespace(l[0]) && !Strings.IsWhitespace(l[|l| - 1])
  }

  /** Whatever holds of every line also holds of every kept line. */
  lemma {:induction false} KeepLinesPreserve(lines: seq<string>, P: string -> bool)
    requires forall i :: 0 <= i < |lines| ==> P(lines[i])
    ensures forall k :: 0 <= k < |KeepLines(lines)| ==> P(KeepLines(lines)[k])
    decreases |lines|
  {
    if |lines| > 0 {
      KeepLinesPreserve(lines[1..], P);
    }
  }

  /** Cleaned lines that pass the filter are clean. */
  lemma KeptCleanedLinesAreClean(lines: seq<string>, block: bool)
    ensures forall k :: 0 <= k < |KeepLines(MapClean(lines, block))| ==> CleanLine(KeepLines(MapClean(lines, block))[k])
  {
    var cleaned := MapClean(lines, block);
    KeepLinesPreserve(cleaned, l => |l| > 0 ==> !Strings.IsWhitespace(l[0]) && !Strings.IsWhitespace(l[|l| - 1]));
  }

  /** The manifest lines of one block doc comment: its lines, with ` * ` markers and whitespace removed. */
  function BlockCommentLines(lit: string): (lines: seq<string>)
    ensures forall k :: 0 <= k < |lines| ==> CleanLine(lines[k])
  {
    KeptCleanedLinesAreClean(Strings.Split(lit, '\n'), true);
    KeepLines(MapClean(Strings.Split(lit, '\n'), true))
  }

  /** Each line of a block comment occurs in it and is a single line. */
  lemma BlockLinesOccur(lit: string)
    ensures forall k :: 0 <= k < |BlockCommentLines(lit)| ==>
              Strings.Contains(lit, BlockCommentLines(lit)[k]) && '\n' !in BlockCommentLines(lit)[k]
  {
    var cleaned := MapClean(Strings.Split(lit, '\n'), true);
    forall i | 0 <= i < |cleaned|
      ensures Strings.Contains(lit, cleaned[i]) && '\n' !in cleaned[i]
    {
      BlockLineOccurs(lit, i);
    }
    KeepLinesPreserve(cleaned, l => Strings.Contains(lit, l) && '\n' !in l);
  }

  lemma BlockLineOccurs(lit: string, i: int)
    requires 0 <= i < |Strings.Split(lit, '\n')|
    ensures var piece := Strings.Split(lit, '\n')[i];
            Strings.Contains(lit, CleanBlockLine(piece)) && '\n' !in CleanBlockLine(piece)
  {
    var piece := Strings.Split(lit, '\n')[i];
    Strings.SplitPiecesOccur(lit, '\n', i);
    ContainsTransitive(lit, piece, CleanBlockLine(piece));
    NoCharInInfix(piece, CleanBlockLine(piece), '\n');
  }

  /** The lines of a block comment are those of the text before a newline followed by those after it. */
  lemma BlockCommentLinesAppend(x: string, y: string)
    ensures BlockCommentLines(x + "\n" + y) == BlockCommentLines(x) + BlockCommentLines(y)
  {
    Strings.SplitAppend(x, y, '\n');
    MapCleanAppend(Strings.Split(x, '\n'), Strings.Split(y, '\n'), true);
    KeepLinesAppend(MapClean(Strings.Split(x, '\n'), true), MapClean(Strings.Split(y, '\n'), true));
  }

  /** A newline-free piece of a block comment yields its cleaned form, if that passes the filter. */
  lemma BlockCommentOneLine(x: string)
    requires '\n' !in x
    ensures BlockCommentLines(x) == if KeepLine(CleanBlockLine(x)) then [CleanBlockLine(x)] else []
  {
    Strings.SplitJoin([x], '\n');
    KeepOneLine(CleanBlockLine(x));
  }

  /** Some literal contains `l`. */
  predicate InSomeLiteral(lits: seq<string>, l: string) {
    exists j :: 0 <= j < |lits| && Strings.Contains(lits[j], l)
  }

  /** The manifest lines of several line doc comments: each comment, trimmed, is one line. */
  function LineCommentLines(lits: seq<string>): (lines: seq<string>)
    ensures forall k :: 0 <= k < |lines| ==> CleanLine(lines[k])
    ensures forall k :: 0 <= k < |lines| ==> InSomeLiteral(lits, lines[k])
  {
    var cleaned := MapClean(lits, false);
    forall i | 0 <= i < |cleaned|
      ensures InSomeLiteral(lits, cleaned[i])
    {
      assert Strings.Contains(lits[i], cleaned[i]);
    }
    KeptCleanedLinesAreClean(lits, false);
    KeepLinesPreserve(cleaned, l => InSomeLiteral(lits, l));
    KeepLines(cleaned)
  }

  /** The lines of a run of line comments are those of its two parts, in order. */
  lemma LineCommentLinesAppend(a: seq<string>, b: seq<string>)
    ensures LineCommentLines(a + b) == LineCommentLines(a) + LineCommentLines(b)
  {
    MapCleanAppend(a, b, false);
    KeepLinesAppend(MapClean(a, false), MapClean(b, false));
  }

  /** One line comment yields its trimmed text, if that passes the filter. */
  lemma LineCommentOneLine(l: string)
    ensures LineCommentLines([l]) == if KeepLine(Strings.Trim(l)) then [Strings.Trim(l)] else []
  {
    KeepOneLine(Strings.Trim(l));
  }

  /**
   * The manifest lines carried by a script's inner doc comments: a single
   * literal (a block comment) is split into lines; several literals (line
   * comments) are one line each.
   */
  function EmbeddedLines(lits: seq<string>): (lines: seq<string>)
    ensures forall k :: 0 <= k < |lines| ==> CleanLine(lines[k])
    ensures forall k :: 0 <= k < |lines| ==> InSomeLiteral(lits, lines[k])
    ensures |lits| == 1 ==> forall k :: 0 <= k < |lines| ==> '\n' !in lines[k]
  {
    if |lits| == 1 then
      var lines := BlockCommentLines(lits[0]);
      BlockLinesOccur(lits[0]);
      assert forall k :: 0 <= k < |lines| ==> Strings.Contains(lits[0], lines[k]);
      assert forall k :: 0 <= k < |lines| ==> InSomeLiteral(lits, lines[k]);
      lines
    else LineCommentLines(lits)
  }

  /** No line of a block comment that survives cleaning and filtering is lost. */
  lemma EmbeddedBlockLinesComplete(lit: string, i: int)
    requires 0 <= i < |Strings.Split(lit, '\n')|
    requires KeepLine(CleanBlockLine(Strings.Split(lit, '\n')[i]))
    ensures CleanBlockLine(Strings.Split(lit, '\n')[i]) in EmbeddedLines([lit])
  {
    KeepLinesComplete(MapClean(Strings.Split(lit, '\n'), true), i);
  }

  /** No line comment that survives trimming and filtering is lost. */
  lemma EmbeddedCommentLinesComplete(lits: seq<string>, i: int)
    requires |lits| != 1 && 0 <= i < |lits|
    requires KeepLine(Strings.Trim(lits[i]))
    ensures Strings.Trim(lits[i]) in EmbeddedLines(lits)
  {
    KeepLinesComplete(MapClean(lits, false), i);
  }

  lemma NoCharInInfix(s: string, t: string, c: char)
    requires Strings.Contains(s, t) && c !in s
    ensures c !in t
  {
    var i :| 0 <= i <= |s| - |t| && Strings.OccursAt(s, t, i);
    assert forall x :: 0 <= x < |t| ==> t[x] == s[i + x];
  }

  /** Each line followed by a newline, as `writeln!` appends them. */
  function Lines(lines: seq<string>): string {
    if |lines| == 0 then "" else lines[0] + "\n" + Lines(lines[1..])
  }

  /** The embedded manifest text of `extract_manifest`, before it is parsed. */
  function EmbeddedManifest(lits: seq<string>): string {
    Lines(EmbeddedLines(lits))
  }

  lemma {:induction false} LinesIsJoin(lines: seq<string>)
    ensures Lines(lines) == Strings.Join(lines + [""], '\n')
    decreases |lines|
  {
    if |lines| > 0 {
      LinesIsJoin(lines[1..]);
      assert (lines + [""])[1..] == lines[1..] + [""];
    }
  }

  /**
   * For a block comment, splitting the embedded manifest at newlines gives
   * back the kept lines (and the empty piece after the last newline).
   */
  lemma EmbeddedManifestSplits(lits: seq<string>)
    requires |lits| == 1
    ensures Strings.Split(EmbeddedManifest(lits), '\n') == EmbeddedLines(lits) + [""]
  {
    LinesSplit(EmbeddedLines(lits));
  }

  /** Newline-free lines, each written with a newline after it, split back into those lines and a final empty piece. */
  lemma LinesSplit(lines: seq<string>)
    requires forall k :: 0 <= k < |lines| ==> '\n' !in lines[k]
    ensures Strings.Split(Lines(lines), '\n') == lines + [""]
  {
    LinesIsJoin(lines);
    var pieces := lines + [""];
    assert forall k :: 0 <= k < |pieces| ==> '\n' !in pieces[k];
    Strings.SplitJoin(pieces, '\n');
  }

  /** A ` * ` marker (however often repeated) before a line is removed. */
  lemma BlockMarkerStripped(rest: string)
    requires !Strings.IsPrefix(" * ", rest)
    ensures Strings.TrimStartMatches(" * " + rest, " * ") == rest
    ensures Strings.TrimStartMatches(" *  * " + rest, " * ") == rest
  {
    NoMarkerKept(rest);
    OneMarkerStripped(rest, rest);
    TwoMarkersStripped(rest);
  }

  lemma TwoMarkersStripped(rest: string)
    requires Strings.TrimStartMatches(" * " + rest, " * ") == rest
    ensures Strings.TrimStartMatches(" *  * " + rest, " * ") == rest
  {
    var once := " * " + rest;
    assert " *  * " + rest == " * " + once;
    OneMarkerStripped(once, rest);
  }

  lemma NoMarkerKept(s: string)
    requires !Strings.IsPrefix(" * ", s)
    ensures Strings.TrimStartMatches(s, " * ") == s
  {
  }

  /** Cutting one leading marker leaves what cutting the markers from the rest leaves. */
  lemma OneMarkerStripped(s: string, r: string)
    requires Strings.TrimStartMatches(s, " * ") == r
    ensures Strings.TrimStartMatches(" * " + s, " * ") == r
  {
    var t := " * " + s;
    assert t[..3] == " * " && t[3..] == s;
  }
}

=== FILE: strings.dfy ===
/** The handful of string operations the lint and manifest code relies on. */
module Strings {

  predicate IsPrefix(p: string, s: string) {
    |p| <= |s| && s[..|p|] == p
  }

  /** `p` occurs in `s` starting at index `i`. */
  predicate OccursAt(s: string, p: string, i: int) {
    0 <= i <= |s| - |p| && s[i..i + |p|] == p
  }

  /** `p` occurs somewhere in `s` as a contiguous piece. */
  predicate Contains(s: string, p: string) {
    exists i :: 0 <= i <= |s| - |p| && OccursAt(s, p, i)
  }

  /** Every occurrence of `from` replaced by `to`, as `str::replace` does for one character. */
  function ReplaceChar(s: string, from: char, to: char): (r: string)
    ensures |r| == |s|
    ensures forall i :: 0 <= i < |s| ==> r[i] == (if s[i] == from then to else s[i])
  {
    if |s| == 0 then ""
    else [if s[0] == from then to else s[0]] + ReplaceChar(s[1..], from, to)
  }

  lemma ReplaceCharRemovesAll(s: string, from: char, to: char)
    requires from != to
    ensures from !in ReplaceChar(s, from, to)
    ensures ReplaceChar(ReplaceChar(s, from, to), from, to) == ReplaceChar(s, from, to)
    ensures from !in s ==> ReplaceChar(s, from, to) == s
  {
    var r := ReplaceChar(s, from, to);
    assert forall i :: 0 <= i < |r| ==> r[i] != from;
    if from !in s {
      assert forall i :: 0 <= i < |s| ==> r[i] == s[i];
    }
  }

  /** Unicode `White_Space`, the set `char::is_whitespace` tests. */
  predicate IsWhitespace(c: char) {
    || ('\U{0009}' <= c <= '\U{000D}') || c == ' ' || c == '\U{0085}' || c == '\U{00A0}'
    || c == '\U{1680}' || ('\U{2000}' <= c <= '\U{200A}') || c == '\U{2028}' || c == '\U{2029}'
    || c == '\U{202F}' || c == '\U{205F}' || c == '\U{3000}'
  }

  function TrimStart(s: string): (r: string)
    ensures |r| <= |s| && r == s[|s| - |r|..]
    ensures |r| > 0 ==> !IsWhitespace(r[0])
    ensures forall i :: 0 <= i < |s| - |r| ==> IsWhitespace(s[i])
  {
    if |s| > 0 && IsWhitespace(s[0]) then TrimStart(s[1..]) else s
  }

  function TrimEnd(s: string): (r: string)
    ensures |r| <= |s| && r == s[..|r|]
    ensures |r| > 0 ==> !IsWhitespace(r[|r| - 1])
    ensures forall i :: |r| <= i < |s| ==> IsWhitespace(s[i])
  {
    if |s| > 0 && IsWhitespace(s[|s| - 1]) then TrimEnd(s[..|s| - 1]) else s
  }

  /**
   * `r` is the piece of `s` starting at index `i`, and everything of `s`
   * before and after that piece is whitespace.
   */
  predicate TrimmedAt(s: string, r: string, i: int) {
    OccursAt(s, r, i)
    && (forall j :: 0 <= j < i ==> IsWhitespace(s[j]))
    && (forall j :: i + |r| <= j < |s| ==> IsWhitespace(s[j]))
  }

  /** `r` is what trimming `s` leaves: only whitespace cut off around it, none left at its ends. */
  predicate IsTrimOf(s: string, r: string) {
    (exists i :: 0 <= i <= |s| - |r| && TrimmedAt(s, r, i))
    && (|r| > 0 ==> !IsWhitespace(r[0]) && !IsWhitespace(r[|r| - 1]))
  }

  /** `str::trim`: leading and trailing whitespace removed. */
  function Trim(s: string): (r: string)
    ensures IsTrimOf(s, r)
    ensures Contains(s, r)
  {
    var t := TrimStart(s);
    var r := TrimEnd(t);
    assert TrimmedAt(s, r, |s| - |t|);
    r
  }

  /** At most one string is the trim of `s`, so `IsTrimOf` pins `Trim` down completely. */
  lemma TrimIsUnique(s: string, r1: string, r2: string)
    requires IsTrimOf(s, r1) && IsTrimOf(s, r2)
    ensures r1 == r2
  {
    TrimEmptyIffBlank(s, r1);
    TrimEmptyIffBlank(s, r2);
    if |r1| > 0 {
      var i1 :| 0 <= i1 <= |s| - |r1| && TrimmedAt(s, r1, i1);
      var i2 :| 0 <= i2 <= |s| - |r2| && TrimmedAt(s, r2, i2);
      assert r1[0] == s[i1] && r2[0] == s[i2];
      assert i1 == i2;
      assert r1[|r1| - 1] == s[i1 + |r1| - 1] && r2[|r2| - 1] == s[i2 + |r2| - 1];
      assert |r1| == |r2|;
    }
  }

  /** Trimming leaves nothing exactly when the string is all whitespace. */
  lemma TrimEmptyIffBlank(s: string, r: string)
    requires IsTrimOf(s, r)
    ensures |r| == 0 <==> forall j :: 0 <= j < |s| ==> IsWhitespace(s[j])
  {
    var i :| 0 <= i <= |s| - |r| && TrimmedAt(s, r, i);
    if |r| > 0 {
      assert r[0] == s[i];
    }
  }

  /** `n` copies of `p` back to back. */
  function Repeat(p: string, n: nat): string {
    if n == 0 then "" else p + Repeat(p, n - 1)
  }

  /** `r` is `s` with whole leading copies of `p` cut off and no further copy left at its front. */
  ghost predicate StripsCopies(s: string, p: string, r: string) {
    (exists n: nat :: s == Repeat(p, n) + r) && !IsPrefix(p, r)
  }

  /** `str::trim_start_matches`: the prefix `p` removed as many times as it repeats. */
  function TrimStartMatches(s: string, p: string): (r: string)
    requires |p| > 0
    ensures |r| <= |s| && r == s[|s| - |r|..]
    ensures StripsCopies(s, p, r)
    decreases |s|
  {
    if IsPrefix(p, s) then
      var r := TrimStartMatches(s[|p|..], p);
      OneMoreCopy(s, p, r);
      r
    else
      assert s == Repeat(p, 0) + s;
      s
  }

  lemma OneMoreCopy(s: string, p: string, r: string)
    requires IsPrefix(p, s) && StripsCopies(s[|p|..], p, r)
    ensures StripsCopies(s, p, r)
  {
    var n: nat :| s[|p|..] == Repeat(p, n) + r;
    assert s == p + s[|p|..];
    assert s == Repeat(p, n + 1) + r;
  }

  /** At most one string strips the copies of `p` from `s`, so `StripsCopies` pins `TrimStartMatches` down. */
  lemma {:induction false} StripsCopiesIsUnique(s: string, p: string, r1: string, r2: string)
    requires |p| > 0
    requires StripsCopies(s, p, r1) && StripsCopies(s, p, r2)
    ensures r1 == r2
    decreases |s|
  {
    var n1: nat :| s == Repeat(p, n1) + r1;
    var n2: nat :| s == Repeat(p, n2) + r2;
    CopyCount(s, p, r1, n1);
    CopyCount(s, p, r2, n2);
    if IsPrefix(p, s) {
      StripsCopiesIsUnique(s[|p|..], p, r1, r2);
    }
  }

  /** Copies were cut off exactly when `s` starts with `p`; cutting one leaves the others. */
  lemma CopyCount(s: string, p: string, r: string, n: nat)
    requires |p| > 0 && s == Repeat(p, n) + r && !IsPrefix(p, r)
    ensures n > 0 <==> IsPrefix(p, s)
    ensures n == 0 ==> s == r
    ensures n > 0 ==> s[|p|..] == Repeat(p, n - 1) + r
  {
    if n == 0 {
      assert Repeat(p, n) + r == r;
    } else {
      assert s == p + (Repeat(p, n - 1) + r);
    }
  }

  /** `str::split` on one separator character: the pieces between separators. */
  function Split(s: string, sep: char): (pieces: seq<string>)
    ensures |pieces| >= 1
    ensures forall k :: 0 <= k < |pieces| ==> sep !in pieces[k]
    ensures Join(pieces, sep) == s
  {
    if |s| == 0 then [""]
    else
      var rest := Split(s[1..], sep);
      if s[0] == sep then
        assert Join([""] + rest, sep) == [sep] + Join(rest, sep);
        [""] + rest
      else
        var pieces := [[s[0]] + rest[0]] + rest[1..];
        JoinCons(s[0], rest, sep);
        pieces
  }

  /** The pieces with `sep` between consecutive ones. */
  function Join(pieces: seq<string>, sep: char): string {
    if |pieces| == 0 then ""
    else if |pieces| == 1 then pieces[0]
    else pieces[0] + [sep] + Join(pieces[1..], sep)
  }

  lemma JoinCons(c: char, pieces: seq<string>, sep: char)
    requires |pieces| > 0
    ensures Join([[c] + pieces[0]] + pieces[1..], sep) == [c] + Join(pieces, sep)
  {
    var q := [[c] + pieces[0]] + pieces[1..];
    assert q[1..] == pieces[1..];
  }

  /** Splitting the joined pieces gives the pieces back, when no piece holds the separator. */
  lemma {:induction false} SplitJoin(pieces: seq<string>, sep: char)
    requires |pieces| >= 1
    requires forall k :: 0 <= k < |pieces| ==> sep !in pieces[k]
    ensures Split(Join(pieces, sep), sep) == pieces
    decreases |pieces|, |pieces[0]|
  {
    if |pieces[0]| == 0 {
      if |pieces| > 1 {
        assert Join(pieces, sep) == [sep] + Join(pieces[1..], sep);
        SplitJoin(pieces[1..], sep);
        assert [sep] + Join(pieces[1..], sep) == Join(pieces, sep);
        assert (Join(pieces, sep))[1..] == Join(pieces[1..], sep);
        assert pieces == [""] + pieces[1..];
      }
    } else {
      var c := pieces[0][0];
      var tail := [pieces[0][1..]] + pieces[1..];
      assert pieces[0] == [c] + pieces[0][1..];
      JoinCons(c, tail, sep);
      assert [[c] + tail[0]] + tail[1..] == pieces;
      assert Join(pieces, sep) == [c] + Join(tail, sep);
      assert Join(pieces, sep)[1..] == Join(tail, sep);
      assert sep !in tail[0] by { assert forall x :: x in tail[0] ==> x in pieces[0]; }
      SplitJoin(tail, sep);
    }
  }

  /** Joining two runs of pieces puts one separator between their joins. */
  lemma {:induction false} JoinAppend(a: seq<string>, b: seq<string>, sep: char)
    requires |a| >= 1 && |b| >= 1
    ensures Join(a + b, sep) == Join(a, sep) + [sep] + Join(b, sep)
    decreases |a|
  {
    assert (a + b)[0] == a[0];
    assert (a + b)[1..] == a[1..] + b;
    if |a| > 1 {
      JoinAppend(a[1..], b, sep);
    }
  }

  /** Splitting at one separator splits the two sides independently, in order. */
  lemma SplitAppend(x: string, y: string, sep: char)
    ensures Split(x + [sep] + y, sep) == Split(x, sep) + Split(y, sep)
  {
    var px := Split(x, sep);
    var py := Split(y, sep);
    JoinAppend(px, py, sep);
    assert forall k :: 0 <= k < |px + py| ==> sep !in (px + py)[k] by {
      forall k | 0 <= k < |px + py|
        ensures sep !in (px + py)[k]
      {
        if k < |px| { assert (px + py)[k] == px[k]; } else { assert (px + py)[k] == py[k - |px|]; }
      }
    }
    SplitJoin(px + py, sep);
  }

  /** Every piece of a join occurs in the joined string, at the returned offset. */
  lemma {:induction false} JoinPieceOffset(pieces: seq<string>, sep: char, k: int) returns (i: int)
    requires 0 <= k < |pieces|
    ensures OccursAt(Join(pieces, sep), pieces[k], i)
    decreases |pieces|
  {
    var joined := Join(pieces, sep);
    if |pieces| == 1 {
      i := 0;
      assert joined[0..|pieces[0]|] == pieces[0];
    } else {
      var tail := Join(pieces[1..], sep);
      assert joined == pieces[0] + [sep] + tail;
      if k == 0 {
        i := 0;
        assert joined[0..|pieces[0]|] == pieces[0];
      } else {
        var j := JoinPieceOffset(pieces[1..], sep, k - 1);
        i := |pieces[0]| + 1 + j;
        assert pieces[1..][k - 1] == pieces[k];
        var rest := joined[|pieces[0]| + 1..];
        assert rest == tail;
        assert joined[i..i + |pieces[k]|] == rest[j..j + |pieces[k]|];
      }
    }
  }

  /** Every piece of a split occurs in the original string. */
  lemma SplitPiecesOccur(s: string, sep: char, k: int)
    requires 0 <= k < |Split(s, sep)|
    ensures Contains(s, Split(s, sep)[k])
  {
    var i := JoinPieceOffset(Split(s, sep), sep, k);
  }

  /** ASCII upper-casing of one character; other characters are kept. */
  function ToUpperAscii(c: char): char {
    if 'a' <= c <= 'z' then (c as int - 32) as char else c
  }

  function ToUpper(s: string): (r: string)
    ensures |r| == |s|
    ensures forall i :: 0 <= i < |s| ==> r[i] == ToUpperAscii(s[i])
  {
    if |s| == 0 then "" else [ToUpperAscii(s[0])] + ToUpper(s[1..])
  }

  /** Strict lexicographic order by character code, the order `sort` puts strings in. */
  predicate LexLess(a: string, b: string) {
    if |a| == 0 then |b| > 0
    else if |b| == 0 then false
    else if a[0] != b[0] then a[0] < b[0]
    else LexLess(a[1..], b[1..])
  }

  lemma {:induction false} LexLessTransitive(a: string, b: string, c: string)
    requires LexLess(a, b) && LexLess(b, c)
    ensures LexLess(a, c)
    decreases |a|
  {
    if |a| > 0 && a[0] == b[0] && b[0] == c[0] {
      LexLessTransitive(a[1..], b[1..], c[1..]);
    }
  }

  lemma {:induction false} LexLessIrreflexive(a: string)
    ensures !LexLess(a, a)
    decreases |a|
  {
    if |a| > 0 {
      LexLessIrreflexive(a[1..]);
    }
  }

  /** Each string strictly before the next one. */
  predicate StrictlySorted(names: seq<string>) {
    forall i :: 0 < i < |names| ==> LexLess(names[i - 1], names[i])
  }

  /** Strictly sorted neighbours mean every earlier string is before every later one. */
  lemma {:induction false} StrictlySortedPairwise(names: seq<string>, i: int, j: int)
    requires StrictlySorted(names)
    requires 0 <= i < j < |names|
    ensures LexLess(names[i], names[j])
    decreases j - i
  {
    if j > i + 1 {
      StrictlySortedPairwise(names, i, j - 1);
      LexLessTransitive(names[i], names[j - 1], names[j]);
    }
  }
}

=== FILE: toml.dfy ===
/**
 * A parsed, span-annotated TOML document and the key-path lookup that
 * locates the span of a key and its value for diagnostics.
 */
module Toml {
  import opened Wrappers

  /** A half-open byte range `start..end` into the manifest text. */
  datatype Range = Range(start: nat, end: nat)

  datatype Value =
    | Table(entries: seq<Entry>)
    | Array(items: seq<Node>)
    | Str(s: string)
    | Bool(b: bool)
    /** Integers, floats and datetimes: the lookup never looks inside them. */
    | OtherScalar

  /** A value together with its own span. */
  datatype Node = Node(value: Value, span: Range)

  /** One `key = value` pair of a table, with the key's span. */
  datatype Entry = Entry(key: string, keySpan: Range, node: Node)

  /** The root table of a manifest. */
  type Document = seq<Entry>

  /** A located key and the value it is paired with. */
  datatype KeyValue = KeyValue(key: string, keySpan: Range, item: Node)

  /** The spans of a located key and of its value. */
  datatype TomlSpan = TomlSpan(key: Range, value: Range)

  /** The range from the start of the key to the end of its value. */
  function WholeEntry(s: TomlSpan): Range {
    Range(s.key.start, s.value.end)
  }

  /** The entry of `table` named `key`; the first one if a key repeats. */
  function Find(table: seq<Entry>, key: string): (r: Option<Entry>)
    ensures r.None? <==> forall i :: 0 <= i < |table| ==> table[i].key != key
    ensures r.Some? ==> exists i :: 0 <= i < |table| && table[i] == r.value && r.value.key == key
                                    && forall j :: 0 <= j < i ==> table[j].key != key
  {
    if |table| == 0 then None
    else if table[0].key == key then Some(table[0])
    else
      var r := Find(table[1..], key);
      assert r.Some? ==> exists i :: 0 <= i < |table[1..]| && table[1..][i] == r.value && r.value.key == key
                                    && forall j :: 0 <= j < i ==> table[1..][j].key != key;
      r
  }

  /** The first element of an array that is the string `s`. */
  function FindString(items: seq<Node>, s: string): (r: Option<Node>)
    ensures r.None? <==> forall i :: 0 <= i < |items| ==> items[i].value != Str(s)
    ensures r.Some? ==> exists i :: 0 <= i < |items| && items[i] == r.value && r.value.value == Str(s)
                                    && forall j :: 0 <= j < i ==> items[j].value != Str(s)
  {
    if |items| == 0 then None
    else if items[0].value == Str(s) then Some(items[0])
    else
      var r := FindString(items[1..], s);
      assert r.Some? ==> exists i :: 0 <= i < |items[1..]| && items[1..][i] == r.value && r.value.value == Str(s)
                                    && forall j :: 0 <= j < i ==> items[1..][j].value != Str(s);
      r
  }

  /**
   * Follows `path` from `table`. A table value is descended into; any other
   * non-array value leaves the current table in place, so the next segment
   * is looked up in the same table again. When an array is reached with
   * segments remaining, the next segment is matched against the array's
   * string elements and the rest of the path is ignored.
   */
  function GetKeyValue(table: seq<Entry>, path: seq<string>): (r: Option<KeyValue>)
    ensures |path| == 0 ==> r.None?
    ensures |path| > 0 && Find(table, path[0]).None? ==> r.None?
    ensures |path| == 1 && Find(table, path[0]).Some? ==>
              r == Some(KeyValue(path[0], Find(table, path[0]).value.keySpan, Find(table, path[0]).value.node))
    ensures r.Some? ==> exists k :: 0 <= k < |path| && r.value.key == path[k]
                                    && (k == |path| - 1 || r.value.item.value == Str(path[k + 1]))
    decreases |path|
  {
    if |path| == 0 then None
    else match Find(table, path[0])
      case None => None
      case Some(e) =>
        if |path| == 1 then Some(KeyValue(e.key, e.keySpan, e.node))
        else match e.node.value
          case Array(items) =>
            (match FindString(items, path[1])
             case None => None
             case Some(item) => Some(KeyValue(e.key, e.keySpan, item)))
          case Table(entries) =>
            var r := GetKeyValue(entries, path[1..]);
            assert r.Some? ==> exists k :: 0 <= k < |path[1..]| && r.value.key == path[1..][k]
                                    && (k == |path[1..]| - 1 || r.value.item.value == Str(path[1..][k + 1]));
            r
          case _ =>
            var r := GetKeyValue(table, path[1..]);
            assert r.Some? ==> exists k :: 0 <= k < |path[1..]| && r.value.key == path[1..][k]
                                    && (k == |path[1..]| - 1 || r.value.item.value == Str(path[1..][k + 1]));
            r
  }

  /** The key and value spans of the entry `path` leads to, if any. */
  function GetKeyValueSpan(doc: Document, path: seq<string>): (r: Option<TomlSpan>)
    ensures r.Some? <==> GetKeyValue(doc, path).Some?
    ensures r.Some? ==> r.value.key == GetKeyValue(doc, path).value.keySpan
                        && r.value.value == GetKeyValue(doc, path).value.item.span
  {
    match GetKeyValue(doc, path)
    case None => None
    case Some(kv) => Some(TomlSpan(kv.keySpan, kv.item.span))
  }

  /** The document holding exactly `leaf` under the nested tables named by `path`. */
  function Nest(path: seq<string>, keySpan: Range, leaf: Node): Document
    requires |path| > 0
    decreases |path|
  {
    if |path| == 1 then [Entry(path[0], keySpan, leaf)]
    else [Entry(path[0], keySpan, Node(Table(Nest(path[1..], keySpan, leaf)), keySpan))]
  }

  /** Looking up a path in the document built along that path finds the leaf. */
  lemma {:induction false} NestedLookup(path: seq<string>, keySpan: Range, leaf: Node)
    requires |path| > 0
    ensures GetKeyValue(Nest(path, keySpan, leaf), path) == Some(KeyValue(path[|path| - 1], keySpan, leaf))
    decreases |path|
  {
    if |path| > 1 {
      NestedLookup(path[1..], keySpan, leaf);
      assert path[1..][|path[1..]| - 1] == path[|path| - 1];
    }
  }

  /** A table value is descended into: the rest of the path is looked up inside it. */
  lemma TableDescends(table: seq<Entry>, key: string, rest: seq<string>)
    requires |rest| > 0
    requires Find(table, key).Some? && Find(table, key).value.node.value.Table?
    ensures GetKeyValue(table, [key] + rest) == GetKeyValue(Find(table, key).value.node.value.entries, rest)
  {
    assert ([key] + rest)[1..] == rest;
  }

  /**
   * A scalar met before the path ends does not replace the current table:
   * the next segment is looked up in the same table.
   */
  lemma ScalarKeepsTable(table: seq<Entry>, key: string, rest: seq<string>)
    requires |rest| > 0
    requires Find(table, key).Some?
    requires var v := Find(table, key).value.node.value; v.Str? || v.Bool? || v.OtherScalar?
    ensures GetKeyValue(table, [key] + rest) == GetKeyValue(table, rest)
  {
    assert ([key] + rest)[1..] == rest;
  }

  /**
   * An array met before the path ends consumes exactly one more segment,
   * matched against its string elements; every later segment is ignored.
   */
  lemma ArrayIgnoresTail(table: seq<Entry>, key: string, s: string, rest: seq<string>)
    requires Find(table, key).Some? && Find(table, key).value.node.value.Array?
    ensures GetKeyValue(table, [key, s] + rest) == GetKeyValue(table, [key, s])
    ensures var e := Find(table, key).value;
            match FindString(e.node.value.items, s)
            case None => GetKeyValue(table, [key, s]).None?
            case Some(item) => GetKeyValue(table, [key, s]) == Some(KeyValue(e.key, e.keySpan, item))
  {
  }
}

=== FILE: validation.dfy ===
/**
 * The current generation's validation of a `[lints.cargo]` table: each
 * declared name is classified, names behind a manifest feature that is not
 * enabled are reported as errors, and unknown names are collected for the
 * unknown-lint report.
 */
module Validation {
  import opened Wrappers
  import opened Levels
  import opened Toml
  import opened Catalog
  import opened Diagnostics

  /** Where a lint's declaration lives in a package or workspace manifest. */
  function LintKeyPath(scope: Scope, name: string): (path: seq<string>)
    ensures |path| == (if scope == WorkspaceScope then 4 else 3) && path[|path| - 1] == name
    ensures path[|path| - 3..|path| - 1] == ["lints", "cargo"]
    ensures scope == WorkspaceScope <==> path[0] == "workspace"
  {
    match scope
    case PackageScope => ["lints", "cargo", name]
    case WorkspaceScope => ["workspace", "lints", "cargo", name]
  }

  /** The outcome of one reporting step: the report, if any, and the updated error count. */
  datatype Step = Step(report: Option<Report>, errorCount: nat)

  /**
   * The "use of unstable lint" error for `name`, behind `feature`. When the
   * manifest has both text and a document but the declaration is not in it
   * (it belongs to the other scope), nothing is reported or counted.
   */
  function ReportFeatureNotEnabled(name: string, feature: string, m: ManifestFor, errorCount: nat): (s: Step)
    ensures s.report.None? <==>
              m.document.Some? && m.contents.Some? && GetKeyValueSpan(m.document.value, LintKeyPath(m.scope, name)).None?
    ensures s.errorCount == errorCount + (if s.report.Some? then 1 else 0)
    ensures s.report.Some? ==>
              var r := s.report.value;
              && r.severity == Error && r.force
              && r.title == UnstableLintTitle(name)
              && r.help == Some(UnstableLintHelp(feature))
              && r.note.None? && r.inherited.None?
              && (r.location.Some? <==> m.document.Some? && m.contents.Some?)
              && (r.location.Some? ==>
                    r.location.value.span == GetKeyValueSpan(m.document.value, LintKeyPath(m.scope, name)).value.key
                    && r.primaryLabel == Some(UnstableLintLabel(feature)))
  {
    var origin := if m.scope == PackageScope then PackageManifest else WorkspaceManifest;
    var bare := Report(Error, UnstableLintTitle(name), None, None, None, Some(UnstableLintHelp(feature)), None, true);
    if m.document.Some? && m.contents.Some? then
      match GetKeyValueSpan(m.document.value, LintKeyPath(m.scope, name))
      case None => Step(None, errorCount)
      case Some(span) =>
        Step(Some(bare.(location := Some(Location(origin, span.key)), primaryLabel := Some(UnstableLintLabel(feature)))),
             errorCount + 1)
    else
      Step(Some(bare), errorCount + 1)
  }

  /** The manifest feature that keeps what `name` refers to from being used, if any. */
  function MissingFeature(catalog: LintCatalog, m: ManifestFor, name: string): (f: Option<string>)
    ensures f.Some? <==> exists g :: GateOf(Classify(catalog, name)) == Some(Feature(g)) && g !in m.features
    ensures f.Some? ==> GateOf(Classify(catalog, name)) == Some(Feature(f.value))
  {
    match GateOf(Classify(catalog, name))
    case Some(Feature(g)) => if g !in m.features then Some(g) else None
    case _ => None
  }

  /** The report the feature-gate check produces for one declared name, if any. */
  function GateReport(catalog: LintCatalog, m: ManifestFor, name: string): (r: Option<Report>)
    ensures r.Some? <==>
              MissingFeature(catalog, m, name).Some?
              && !(m.document.Some? && m.contents.Some? && GetKeyValueSpan(m.document.value, LintKeyPath(m.scope, name)).None?)
    ensures r.Some? ==>
              var f := MissingFeature(catalog, m, name).value;
              && r.value.title == UnstableLintTitle(name) && r.value.severity == Error && r.value.force
              && r.value.help == Some(UnstableLintHelp(f))
              && r.value.note.None? && r.value.inherited.None?
              && (r.value.location.Some? <==> m.document.Some? && m.contents.Some?)
              && (r.value.location.Some? ==>
                    r.value.location.value.span == GetKeyValueSpan(m.document.value, LintKeyPath(m.scope, name)).value.key
                    && r.value.primaryLabel == Some(UnstableLintLabel(f)))
  {
    match MissingFeature(catalog, m, name)
    case None => None
    case Some(f) => ReportFeatureNotEnabled(name, f, m, 0).report
  }

  /** The feature-gate reports for the declared names, in table order. */
  function GateReports(catalog: LintCatalog, m: ManifestFor, names: seq<string>): (reports: seq<Report>)
    ensures |reports| <= |names|
    ensures forall r :: r in reports ==> r.severity == Error && r.force
  {
    if |names| == 0 then []
    else
      var init := names[..|names| - 1];
      var last := GateReport(catalog, m, names[|names| - 1]);
      GateReports(catalog, m, init) + (if last.Some? then [last.value] else [])
  }

  /** Reporting keeps the names' order: it commutes with concatenation. */
  lemma {:induction false} GateReportsAppend(catalog: LintCatalog, m: ManifestFor, a: seq<string>, b: seq<string>)
    ensures GateReports(catalog, m, a + b) == GateReports(catalog, m, a) + GateReports(catalog, m, b)
    decreases |b|
  {
    if |b| == 0 {
      assert a + b == a;
    } else {
      var init := b[..|b| - 1];
      assert (a + b)[..|a + b| - 1] == a + init;
      assert (a + b)[|a + b| - 1] == b[|b| - 1];
      GateReportsAppend(catalog, m, a, init);
    }
  }

  /** A single name yields exactly the report `GateReport` makes for it, if any. */
  lemma GateReportsOne(catalog: LintCatalog, m: ManifestFor, name: string)
    ensures GateReports(catalog, m, [name]) ==
              if GateReport(catalog, m, name).Some? then [GateReport(catalog, m, name).value] else []
  {
    assert [name][..0] == [];
  }

  /**
   * The current generation's `analyze_cargo_lints_table`, up to handing the
   * unknown names to the unknown-lint report: one error per declared name
   * whose manifest feature is off (counted into the error count) and the
   * unknown names in table order.
   */
  method AnalyzeCargoLintsTable(m: ManifestFor, catalog: LintCatalog, cargoLints: TomlToolLints, errorCount: nat)
    returns (reports: seq<Report>, count: nat, unknown: seq<string>)
    ensures reports == GateReports(catalog, m, Keys(cargoLints))
    ensures count == errorCount + |reports|
    ensures unknown == UnknownNames(catalog, Keys(cargoLints))
    ensures forall x :: x in unknown <==> x in Keys(cargoLints) && Classify(catalog, x).Unknown?
  {
    var names := Keys(cargoLints);
    reports, count, unknown := [], errorCount, [];
    var i := 0;
    while i < |names|
      invariant 0 <= i <= |names|
      invariant reports == GateReports(catalog, m, names[..i])
      invariant count == errorCount + |reports|
      invariant unknown == UnknownNames(catalog, names[..i])
    {
      var name := names[i];
      PrefixSnoc(names, i);
      var c := Classify(catalog, name);
      if c.Unknown? {
        unknown := unknown + [name];
      } else {
        var missing := MissingFeature(catalog, m, name);
        if missing.Some? {
          var step := ReportFeatureNotEnabled(name, missing.value, m, count);
          ReportIndependentOfCount(name, missing.value, m, count);
          if step.report.Some? {
            reports := reports + [step.report.value];
          }
          count := step.errorCount;
        }
      }
      i := i + 1;
    }
    assert names[..i] == names;
  }

  /** The names up to `i + 1` are those up to `i` and one more. */
  lemma PrefixSnoc(names: seq<string>, i: int)
    requires 0 <= i < |names|
    ensures names[..i + 1][..i] == names[..i] && names[..i + 1][i] == names[i]
  {
  }

  lemma ReportIndependentOfCount(name: string, feature: string, m: ManifestFor, errorCount: nat)
    ensures ReportFeatureNotEnabled(name, feature, m, errorCount).report == ReportFeatureNotEnabled(name, feature, m, 0).report
  {
  }

  /** Names that are unknown, ungated, CLI-gated or dynamic groups never get a feature-gate report. */
  lemma OnlyDisabledFeatureGatesReport(catalog: LintCatalog, m: ManifestFor, name: string)
    ensures Classify(catalog, name).KnownDynamicGroup? ==> GateReport(catalog, m, name).None?
    ensures Classify(catalog, name).Unknown? ==> GateReport(catalog, m, name).None?
    ensures GateOf(Classify(catalog, name)).None? ==> GateReport(catalog, m, name).None?
    ensures (exists flag :: GateOf(Classify(catalog, name)) == Some(Cli(flag))) ==> GateReport(catalog, m, name).None?
    ensures (exists f :: GateOf(Classify(catalog, name)) == Some(Feature(f)) && f in m.features) ==>
              GateReport(catalog, m, name).None?
  {
  }
}

=== FILE: wrappers.dfy ===
/** Option and Result, the two failure-carrying shapes the model needs. */
module Wrappers {

  datatype Option<+T> = None | Some(value: T) {
    function GetOr(default: T): T {
      match this
      case Some(v) => v
      case None => default
    }
  }

  /** `Err` carries the error message cargo reports. */
  datatype Result<+R, +E> = Ok(value: R) | Err(error: E)
}
